=== FILE: README.md ===
# CDHT peer: ring bookkeeping, control messages and datagram transfer

This project models one peer of the circular DHT (`cdht`) as sequential, pure
state transitions, and proves properties of that model. A peer knows its own id,
two successors and two predecessors. It learns its predecessors from the pings
its successors send it. It repairs its successor links from graceful-quit (`GQ`)
and dead-peer (`DP`) messages that arrive over TCP. It sends a file in
stop-and-wait datagrams (`FS` segments), and the receiving peer appends them to a
file and acknowledges each with `ACK`.

The modules follow the classes:

- `JavaLang` (java_lang.dfy) holds the Java library behaviour the code relies on:
  - `int` wrap-around;
  - `String.trim`, `split(" ")`, `Integer.parseInt`, `Integer.toString` and `BufferedReader.readLine`;
  - `String.getBytes` and `new String(byte[])`;
  - fixed-size buffers that truncate or zero-fill.
- `Ring` (ring.dfy) covers `cdht`:
  - the ring state;
  - `updatePredecessors`;
  - the predecessor tests;
  - `getPort`;
  - `createQuitMessage`;
  - the receiver selection in `gracefulQuit`.
- `TcpServer` (tcp_server.dfy) covers `TCPServer`: `extractType`, `getMessageFields`, `parseTCPRequest` and the `GQ`/`DP` handlers.
- `FileSender` (file_sender.dfy) covers `FileSenderUDP`: the transfer loop of `beginFileTransfer` and `createPacketHeader`.
- `PingServer` (ping_server.dfy) covers `PingServerUDP`: `handlePacket`, `receiveFilePacket`, `ackFilePacket`, ping parsing and the ping reply.
- `PingSender` (ping_sender.dfy) covers `PingSenderUDP`: the consecutive-failure counter, target selection and `createPingRequest`.
- `Exchange` (exchange.dfy) puts the two ends of each datagram exchange together. What a sender writes is what the listener reads, and a whole lossless transfer arrives as the source file.

Modelling choices:

- **Characters and bytes.** A byte is a value 0..255. Strings are encoded and decoded one byte per character (Latin-1). Every message the peer builds is ASCII, so the platform charset does not matter for them.
- **Splitting.** `split(" ")` is modelled exactly, including the removal of trailing empty strings (`JavaSplit`). Every split in the code is applied to a trimmed string, and on a trimmed string it equals a plain split at every single space. `Tokens(s)` is therefore `Split(Trim(s))` (`TokensAreJavaSplit`). Consecutive spaces produce empty tokens, as in Java.
- **Exceptions.** An uncaught runtime exception ends the thread that raised it: `NumberFormatException`, `ArrayIndexOutOfBoundsException` or `NegativeArraySizeException`. It becomes an `Err` result, and the listener loops stop at the first one. The listener's fault carries the received file as the exception left it: a segment that is shorter than its header has already re-created the file when its write fails. `readLine` returning `null` on an empty connection becomes the `NoLine` fault.
- **The network and the clock become inputs.** A transfer is driven by a sequence of rounds. Each round says whether the random drop discarded the datagram and which datagrams arrived before the socket timeout. A ping outcome is `Responded` or `TimedOut`.
- **Missing constants and calls.** `cdht.TRANSFER_HEADER_LEN` and `getMSS` are not part of this model. They are the `headerLen` and `mss` fields of `Ring.Config`. `handleDeadPeer` and the two-argument `updatePredecessors` called by the listener are not part of this model either. They become events: the probe's `declaresDead` flag and the listener's `PingFrom(id, flag)` notice.
- **Setters and getters.** The successor and predecessor setters and getters of `cdht` are record updates and field reads of `RingState`.
- **Behaviour the code fixes, and where:**
  - A `GQ` message is `GQ <peer> <first> <second>`, with no flag and no acknowledgement (src/cdht.java:244-249).
  - A segment header is `FS <peer> <cursor> <eof>` (src/FileSenderUDP.java:158). The acknowledgement is `ACK <peer> <cursor>`: the listener's `seq_num` is the sender's peer id (src/PingServerUDP.java:139-141).
  - A malformed TCP message or segment header ends the listener's thread. It is not discarded: nothing catches the parse exception (src/TCPServer.java:75-76, src/PingServerUDP.java:88-90).
  - A repeated segment is appended again (`PingServer.DuplicateWrittenTwice`, src/PingServerUDP.java:118-121).
  - After `MAX_FAILS` timeouts the failure counter is not reset. Every further timeout declares the successor dead again (src/PingSenderUDP.java:97-101).
- **The two defects under "## Findings".** They are modelled as written (`Build.AsWritten`) and corrected (`Build.Fixed`). The end-to-end results in `Exchange` use the corrected sender.

## Model

| member | source | states |
|---|---|---|
| JavaLang.Wrap32 | src/cdht.java:258-260 | The result is a Java `int` congruent to the argument modulo 2^32, and equals it when it is already in range: two's-complement overflow of `int` addition |
| JavaLang.Trim | src/TCPServer.java:60 | `String.trim`: the result has no leading or trailing character ≤ U+0020 and is no longer than the input |
| JavaLang.TrimPadded | src/PingServerUDP.java:85-86 | Trimming a trimmed text surrounded by white space or NUL padding gives back exactly that text |
| JavaLang.Split | src/TCPServer.java:185 | `split(" ")` before trailing empties are dropped: at least one piece, no piece contains a space, the first piece is the text before the first space, and joining the pieces with single spaces gives back the input |
| JavaLang.SplitJoin | src/TCPServer.java:196 | Splitting words joined by single spaces gives back the words: split inverts join |
| JavaLang.TokensAreJavaSplit | src/TCPServer.java:75-76 | The tokens of a message are Java's `split(" ")` of the trimmed message, including the removal of trailing empty strings |
| JavaLang.TokensOfWords | src/FileSenderUDP.java:158 | Space-free, trimmed words joined by single spaces, with any white or NUL padding around them, split back into exactly those words |
| JavaLang.TrimmedIsJoinOfTokens | src/TCPServer.java:75-76 | A text without leading or trailing white space is exactly its tokens joined by single spaces, so a message is determined by its tokens |
| JavaLang.IntToString | src/cdht.java:246-247 | `Integer.toString` yields a non-empty, space-free, single-line ASCII word, all digits exactly when the value is non-negative |
| JavaLang.ParseInt | src/TCPServer.java:200 | `Integer.parseInt` succeeds exactly on an optionally signed, non-empty run of decimal digits whose value fits an `int`, and returns that value |
| JavaLang.ParseIntToString | src/TCPServer.java:200 | Parsing the decimal text of any `int`, including negative ones such as the -1 sentinel, gives back that `int` |
| JavaLang.IntToStringLength | src/FileSenderUDP.java:158 | The decimal text of any `int` has at most 11 characters |
| JavaLang.ReadLine | src/TCPServer.java:60 | `readLine` is absent exactly on an empty stream. Otherwise it is the longest prefix that contains no line terminator, and it is followed by a terminator or by the end of the stream |
| JavaLang.ReadLineUnterminated | src/PingServerUDP.java:159-161 | A line without terminators, followed by nothing or by a line break, reads back as itself |
| JavaLang.Fit | src/FileSenderUDP.java:159-161 | Copying into a fixed buffer of n bytes: position i holds the source byte when there is one and 0 otherwise. Longer sources are cut off and shorter ones zero-filled |
| JavaLang.BufferedText | src/PingServerUDP.java:76-86 | Text copied into a larger zero-filled buffer decodes as the text followed by NULs. These count as white space for `trim` and are not line breaks, so the buffer's tokens are the text's tokens |
| JavaLang.Encode | src/FileSenderUDP.java:158-159 | `getBytes` on single-byte text keeps the length and decodes back to the same text |
| JavaLang.IntFields | src/PingServerUDP.java:88-90 | Parsing `count` tokens from position `from` succeeds exactly when those tokens exist and all parse, and yields one value per token |
| JavaLang.IntFieldsSpec | src/PingServerUDP.java:161-165 | Each parsed value is its token's `parseInt`. A missing token is an index error, and a token that does not parse is a number-format error |
| Ring.Create | src/cdht.java:17-18 | A new peer's ids are `int`s, its predecessor slots already satisfy the ordering pattern, and it does not count itself as a predecessor unless its own id is the -1 sentinel |
| Ring.GetPort | src/cdht.java:258-260 | The port is `50000 + id` in `int` arithmetic. It lies 50000 above the id whenever that does not overflow |
| Ring.GetPortInjective | src/cdht.java:258-260 | Distinct ids below the overflow point have distinct ports |
| Ring.UpdatePredecessors | src/cdht.java:114-151 | The call leaves the peer and successors untouched. An id already in either slot changes nothing. Otherwise the id fills the first unknown slot, and the resulting pair is a permutation of the pair after the fill. After a new id, the ordering pattern holds: never a first predecessor above the peer with the second below, and the larger first when both are on one side. `int` ids stay `int` |
| Ring.UpdateIdempotent | src/cdht.java:114-151 | A second call with the same id changes nothing: the update is idempotent |
| Ring.LoneHighPredecessorIsSecond | src/cdht.java:122-150 | The first id learnt, when above the peer's own id, ends up in the second slot, because the -1 sentinel counts as below |
| Ring.UpdatesKeepOrder | src/cdht.java:134-150 | Starting from an ordered pair, any sequence of updates keeps the ordering pattern |
| Ring.CreateQuitMessage | src/cdht.java:244-249 | The quit message's tokens are exactly `GQ`, the peer's id, and the two given ids, on one ASCII line. It has no padding, so it is exactly those tokens joined by single spaces (`TrimmedIsJoinOfTokens`) |
| Ring.GracefulQuit | src/cdht.java:194-212 | To the first predecessor it sends the peer's two successors. To the second predecessor, when that is a different peer, it sends the first predecessor and the first successor. Both go to the receiver's port and end in a newline. Any other receiver is the fatal "impossible error", and only such a receiver is |
| Ring.Quit | src/cdht.java:181-183 | Quitting notifies exactly the first and then the second predecessor, at their ports |
| TcpServer.ExtractType | src/TCPServer.java:184-186 | The type is the text before the first space of the trimmed message: a space-free prefix that ends at a space or at the end |
| TcpServer.Fields | src/TCPServer.java:194-203 | `getMessageFields` succeeds exactly when there are at most three fields after the type and all parse. Each parsed value is its token's `int`, and the slots of missing trailing fields hold 0. A fifth token is an index error, and a field that does not parse is a number-format error |
| TcpServer.StoreFields | src/TCPServer.java:199-201 | The parsing loop from index i stops at the first failure: an index error only after every token up to the fifth parsed, and a number-format error at some token that does not parse. Slots the loop does not reach keep their values |
| TcpServer.ProcessGracefulQuit | src/TCPServer.java:103-117 | A `GQ` message's second and third fields become the first and second successors. Nothing else changes and nothing is sent |
| TcpServer.CreateKillResponse | src/TCPServer.java:172-175 | The repair reply's tokens are `DP`, the responder's id, `0` and the responder's first successor. It has no padding, so it is exactly those tokens joined by single spaces |
| TcpServer.ProcessDeadPeer | src/TCPServer.java:125-166 | A `DP` query (flag 1) changes no state and sends the kill response to the querier's port. Any other flag sets only the second successor, to the third field |
| TcpServer.ParseRequest | src/TCPServer.java:73-85 | Fields are parsed before dispatch, so a bad field fails whatever the tag. `GQ` and `DP` go to their handlers, and any other tag, `FR` included, changes nothing. The peer id and predecessors never change, and `int` state stays `int` |
| TcpServer.Dispatch | src/TCPServer.java:78-85 | Dispatch fails exactly when the fields failed to parse, with that parse error. `GQ` is the graceful-quit handler and `DP` the dead-peer handler. Any other tag, `FR` included, changes nothing and sends nothing. Only the successors can change, and `int` ids stay `int` |
| TcpServer.HandleConnection | src/TCPServer.java:57-61 | An empty connection is the `null` line fault. Otherwise the first line, trimmed, is parsed as a request |
| TcpServer.FieldsOfMessage | src/TCPServer.java:194-203 | Any tag word and three `int` fields joined by spaces, with white padding, parse back to the tag and the three values |
| TcpServer.QuitRoundTrip | src/cdht.java:244-249 | The receiver of any quit message, negative ids included, ends with successors `(a, b)` and its predecessors untouched |
| TcpServer.KillResponseRoundTrip | src/TCPServer.java:172-175 | The kill response parses to `[responder, 0, responder's first successor]`. The querier that handles it takes the responder's first successor as its second successor |
| TcpServer.DeadPeerRepairExchange | src/TCPServer.java:131-175 | A `DP` query is answered at the querier's port with the kill response and leaves the responder unchanged. Handling that response repairs the querier's second successor |
| TcpServer.GracefulQuitHandshake | src/cdht.java:181-211 | When peer P quits, its first predecessor Q ends with successors `(P.first, P.second)` and its second predecessor R ends with `(Q, P.first)`. Each is notified at its own port |
| FileSender.ConcatPieces | src/FileSenderUDP.java:75-91 | The pieces, concatenated, are exactly the rest of the file |
| FileSender.PieceSizes | src/FileSenderUDP.java:81-86 | Every piece has between 1 and MSS bytes, and all but the last are full. The last is full exactly when MSS divides the length |
| FileSender.PiecesCount | src/FileSenderUDP.java:75-91 | The number of pieces is the file length divided by MSS, rounded up |
| FileSender.HeaderTextTokens | src/FileSenderUDP.java:157-158 | The header text's tokens, whatever padding surrounds it, are `FS`, the peer id, the cursor and the EOF flag. It is a single line |
| FileSender.HeaderTextBound | src/FileSenderUDP.java:158 | With `int` fields and a 0/1 flag the header text has at most 28 characters |
| FileSender.HeaderText | src/FileSenderUDP.java:158 | The header text's tokens are `FS`, the peer id, the cursor and the EOF flag. It has no padding, so it is exactly those tokens joined by single spaces |
| FileSender.CreatePacketHeader | src/FileSenderUDP.java:157-163 | The header is exactly `TRANSFER_HEADER_LEN` bytes long. Byte i is character i of the header text while the text lasts and 0 after it, so a longer text is cut off and a shorter one zero-filled |
| FileSender.Datagram | src/FileSenderUDP.java:98-100 | A datagram is the fixed-length header followed by the payload |
| FileSender.Start | src/FileSenderUDP.java:55-75 | Before the loop nothing has been read, the cursor and both flags are 0, no segment is composed and the 10-byte acknowledgement buffer is zeroed. In either build the loop runs at all exactly when the file is not empty. `StartInv` states that the loop invariant holds here |
| FileSender.Compose | src/FileSenderUDP.java:78-100 | A fresh segment takes `min(MSS, remaining) > 0` bytes: exactly the file bytes that follow those already read. The retransmission flag and the ACK buffer are untouched |
| FileSender.ComposeKeepsInv | src/FileSenderUDP.java:81-94 | Composing keeps the loop invariant: the cursor is the `int`-wrapped count of bytes read, and the buffer holds the last piece. The segment is flagged EOF exactly when the build's end-of-file test holds for the bytes that remained |
| FileSender.ComposeTakesNextPiece | src/FileSenderUDP.java:81-100 | The composed payload is the next of the file's MSS pieces |
| FileSender.CursorCountsBytes | src/FileSenderUDP.java:89-94 | For a file of at most `INT_MAX` bytes, the cursor and the composed segment's cursor equal the number of bytes read |
| FileSender.ReceiveInto | src/FileSenderUDP.java:119-121 | Receiving into the reused 10-byte buffer overwrites only as many bytes as arrived. The rest keep what earlier datagrams left |
| FileSender.AckRecognised | src/FileSenderUDP.java:121-125 | A datagram starting "ACK " is recognised as an acknowledgement, whatever the reused buffer held before |
| FileSender.AwaitAckSpec | src/FileSenderUDP.java:117-133 | The wait is acknowledged exactly when some datagram that arrives in time leaves a buffer whose first token is `ACK`, whatever cursor follows. Otherwise it times out, and the buffer holds what all the datagrams left |
| FileSender.AckAfterMeans | src/FileSenderUDP.java:125-129 | The n-th datagram ends the wait exactly when the buffer after it starts with the `ACK` token |
| FileSender.AwaitAck | src/FileSenderUDP.java:117-133 | The wait keeps the 10-byte buffer, and it can end acknowledged only when some datagram arrived. `AwaitAckSpec` states exactly which datagrams end it |
| FileSender.Iterate | src/FileSenderUDP.java:75-134 | While retransmitting, nothing is read and the cursor, flag and segment stay the same. Otherwise the next piece is composed. A datagram is sent exactly when it is not dropped, and it is the composed segment. The retransmission flag is set exactly when the wait times out, or when a retransmission is dropped again |
| FileSender.IterateKeepsInv | src/FileSenderUDP.java:75-134 | One loop iteration keeps the invariant, whatever the drop and replies |
| FileSender.Run | src/FileSenderUDP.java:75-134 | The loop keeps the sender well formed. With no rounds left, or once its condition fails, it sends nothing and composes nothing. `RunKeepsInv`, `FreshArePieces` and `FinishedSendsWholeFile` state what it sends |
| FileSender.RunKeepsInv | src/FileSenderUDP.java:75-134 | Any number of iterations keeps the invariant |
| FileSender.FreshArePieces | src/FileSenderUDP.java:78-100 | The fresh segments of a run, followed by the pieces not yet read, are the pieces that were left before the run |
| FileSender.FinishedSendsWholeFile | src/FileSenderUDP.java:75-100 | When the loop ends, the fresh payloads were exactly the file's pieces, and together they are the whole file |
| FileSender.EmptyFileSendsNothing | src/FileSenderUDP.java:75 | An empty file sends no segment and leaves the sender as it started |
| FileSender.AsWrittenEof | src/FileSenderUDP.java:81-86 | As written, the EOF flag is set exactly when the whole non-empty file has been read and MSS does not divide its length |
| FileSender.AsWrittenNeverFlagsMultiple | src/FileSenderUDP.java:81-86 | As written, no segment of a file whose length MSS divides ever carries EOF = 1 |
| FileSender.FixedEof | src/FileSenderUDP.java:81-86 | Corrected, the EOF flag is set exactly when the whole non-empty file has been read |
| FileSender.AsWrittenAbandonsFinalSegment | src/FileSenderUDP.java:75 | As written, a one-byte file whose only segment is dropped is never sent. The loop has finished with the retransmission flag still set, whatever rounds follow |
| FileSender.FixedEndsAcknowledged | src/FileSenderUDP.java:75-134 | Corrected, and when nothing arrives for a dropped datagram (`Honest` rounds), the loop ends only after its last segment has been transmitted. A run that finishes ends with the composed segment as the last one sent |
| FileSender.FixedDeliversFinalSegment | src/FileSenderUDP.java:75-134 | Corrected, and with `Honest` rounds, a finished transfer of a non-empty file has sent a last segment that carries EOF = 1 and the file's last piece |
| FileSender.StrayAckSkipsSegment | src/FileSenderUDP.java:117-129 | In either build, an `ACK` that arrives while a dropped segment waits ends the wait whatever cursor it carries. That segment is never transmitted: of a three-byte file at MSS 2 only the last byte is sent, and the loop exits |
| FileSender.LosslessSendsEachPieceOnce | src/FileSenderUDP.java:106-133 | When every datagram gets through and is promptly acknowledged, no retransmission occurs. The segments sent are the fresh pieces, once each and in order, and only the last may carry EOF |
| PingServer.HandlePacket | src/PingServerUDP.java:73-116 | Handling one datagram sends at most one reply |
| PingServer.AckText | src/PingServerUDP.java:139-141 | The acknowledgement's tokens are `ACK`, the first header field and the second. It has no padding, so it is exactly those tokens joined by single spaces |
| PingServer.ReceiveSegment | src/PingServerUDP.java:82-120 | A segment that is handled raises no ping notice and sends exactly one reply, to the segment's source. An exception leaves the file as it was, except when the header parsed and the datagram is shorter than the header. Then a file that was closed has already been created afresh, and it is empty |
| PingServer.ReceivePing | src/PingServerUDP.java:107-110 | A ping that is handled leaves the file alone and is answered with this peer's id, sent to the ping's source |
| PingServer.Pong | src/PingServerUDP.java:192-202 | The reply goes back to the pinger. It is one line of text that parses back to this peer's id |
| PingServer.PingOutcomes | src/PingServerUDP.java:107-172 | A `PG` datagram, by the tokens of its buffer's first line: `PingFrom(id, flag)` is reported exactly when tokens 1 and 2 are numerals, with their values. A non-numeral is caught: answered, nothing reported. The thread ends, with an index error, exactly when a token is missing before any non-numeral. The file is never touched |
| PingServer.SegmentFaults | src/PingServerUDP.java:79-120 | An `FS` datagram ends the thread exactly when its header does not parse (a field missing or not a numeral), or the datagram or buffer is shorter than the header. For a datagram at least a header long, that is exactly when its own header does not parse. A header that does not parse leaves the file alone. A parsed header in a datagram shorter than the header has already created the file afresh, keeping the bytes of a file still open |
| PingServer.OnlySegmentsTouchTheFile | src/PingServerUDP.java:76-111 | A datagram not tagged `FS` never changes the received file. A `PG` datagram is answered with the id. Any other tag is ignored: no change and no reply |
| PingServer.SegmentAppends | src/PingServerUDP.java:82-131 | An `FS` datagram whose header parses appends exactly its bytes after the header. It opens a fresh file when none is open, closes the file exactly on EOF = 1, and acknowledges the first two header fields to the source |
| PingServer.TagOfBuffer | src/PingServerUDP.java:75-79 | The receive buffer's two-byte tag is the datagram's own first two bytes |
| PingServer.ServeStep | src/PingServerUDP.java:33-41 | The listener loop handles the first datagram and then continues with the rest from the new file state |
| PingServer.ServeConcat | src/PingServerUDP.java:33-41 | Serving two batches in turn is serving their concatenation, when the first batch raises no exception |
| PingServer.Serve | src/PingServerUDP.java:29-47 | The listener reports at most one ping per datagram, and an exception raised by the first datagram ends it |
| PingServer.ServeRepliesBound | src/PingServerUDP.java:29-47 | Over the whole loop this peer sends at most one reply per datagram received |
| PingServer.FaultStops | src/PingServerUDP.java:33-46 | An exception ends the listener: no later datagram is handled, and the file is as the exception left it |
| PingServer.ShortSegmentEmptiesFile | src/PingServerUDP.java:96-120 | A segment whose header parses but which is shorter than its header, arriving after a finished file was closed, ends the listener and leaves an empty file: the file is created before the negative write length raises |
| PingServer.DuplicateWrittenTwice | src/PingServerUDP.java:118-121 | A repeated, non-final segment is appended twice and acknowledged twice: the receiver does not de-duplicate |
| PingServer.EndOfFileStartsAfresh | src/PingServerUDP.java:96-127 | After an EOF segment the file is closed, and the next segment starts a new file holding only its own payload |
| PingSender.CreatePingRequest | src/PingSenderUDP.java:125-128 | The ping's tokens are `PG`, the peer id, and `1` towards the first successor or `0` towards the second. It has no padding, so it is exactly those tokens joined by single spaces |
| PingSender.NextFails | src/PingSenderUDP.java:88-104 | A response resets the failure counter to 0. A timeout increments it, capped at `MAX_FAILS` |
| PingSender.Iterate | src/PingSenderUDP.java:70-104 | Each ping goes to the port of the successor read in that iteration. Its bytes read as the tokens `PG`, the sender's id and the slot flag, whatever the ring holds. It declares the successor dead exactly on a timeout when the counter is already at `MAX_FAILS` |
| PingSender.CounterIsCappedStreak | src/PingSenderUDP.java:66-104 | After any sequence of outcomes, the counter is `min(consecutive trailing timeouts, MAX_FAILS)` |
| PingSender.Run | src/PingSenderUDP.java:66-107 | The loop makes one probe per iteration, and the failure counter never exceeds `MAX_FAILS`. `CounterIsCappedStreak`, `DeadExactlyPastThreshold` and `TargetsFollowRing` state what each probe does |
| PingSender.RunPrefix | src/PingSenderUDP.java:69-107 | The probes of a prefix of the outcomes are the prefix of the probes: the loop does not look ahead |
| PingSender.DeadExactlyPastThreshold | src/PingSenderUDP.java:97-101 | A probe declares the successor dead exactly when it ends a run of more than `MAX_FAILS` consecutive timeouts: first on the fifth and then on every further one |
| PingSender.TargetsFollowRing | src/PingSenderUDP.java:70-79 | Every probe goes to the successor held by the ring state read in that iteration, so successor updates redirect the next probe. Every probe carries the same ping: `PG`, the sender's id and the slot flag |
| Exchange.HeaderReadsBack | src/PingServerUDP.java:82-90 | When the header text fits `TRANSFER_HEADER_LEN`, the listener reads back the sender's tag, peer id, cursor and EOF flag from a composed datagram |
| Exchange.SegmentDelivered | src/PingServerUDP.java:79-104 | A composed segment that fits the receive buffer is appended to the file, closes it exactly on EOF = 1, and is acknowledged to its source with the sender's id and cursor |
| Exchange.AckAccepted | src/PingServerUDP.java:139-141 | The listener's acknowledgement ends the sender's wait, whatever the sender's reused buffer held before |
| Exchange.PingAnswered | src/PingServerUDP.java:107-110 | A ping request is answered with this peer's id and reported as coming from the pinging peer, with its slot flag. The file is untouched |
| Exchange.PingParsed | src/PingServerUDP.java:159-165 | The ping line read from the zero-filled receive buffer parses to the pinging peer's id and its slot flag |
| Exchange.StoredInOrder | src/PingServerUDP.java:33-41 | Any listener that stores fitting segments as the peer does takes a deliverable sequence of segments without an exception or a ping notice. Its file is the payloads appended in order, it is open exactly when the last segment is not flagged, and it sends one acknowledgement per segment |
| Exchange.DeliveredInOrder | src/PingServerUDP.java:33-41 | This peer's listener takes a deliverable sequence of segments in order, appending every payload and acknowledging each |
| Exchange.SentDeliversFile | src/FileSenderUDP.java:75-134 | A lossless corrected transfer sends segments the listener can take, the last flagged EOF, whose payloads together are the source file |
| Exchange.FileArrives | src/FileSenderUDP.java:75-134 | A complete lossless transfer from the corrected sender reaches a listener with no file open as exactly the source file, closed, with every segment acknowledged once and in order |

## Left out

- Threads and their lifecycle (`start`, `run`, `shutdown`, `killThreads`, the volatile flags) are left out. The unsynchronised sharing of the ring fields between them is left out too. Every operation is a sequential state transition.
- Sockets, `ServerSocket.accept`, datagram send and receive, socket timeouts and `Thread.sleep` become inputs (rounds, outcomes, packets). Failures to open or send on a socket, and the `IOException` paths, are left out.
- `Math.random()` and the `float` comparison with `drop_prob` are left out. The drop is the boolean `dropped` of each round.
- File and log I/O is left out: `FileInputStream`, `FileOutputStream`, the `PrintWriter` logs, `Duration`, `Instant` and `write_log_text`. The source file and the received file are byte sequences, and `FileNotFoundException` paths are not modelled. A short read from `file_data_stream` is not modelled: every read returns all the bytes asked for.
- `main`, `parseUserInput` (apart from its quit branch, modelled by `Ring.Quit`), `createFileRequest`, `processFileRequest`'s printing, the `debug` dump and all `System.out` output are console and logging.
- `handleDeadPeer` and the two-argument `updatePredecessors` are not part of this model. They are the abstract events `declaresDead` and `PingFrom`. Ownership and routing of file requests and quit acknowledgements are not implemented by this code and are not invented.
- `printPingResponse` only prints. The 1024-byte ping response buffer and the `replaceAll` it applies are left out with it.
- `processQuery`'s connection failure (`UnknownHostException`, `IOException`) is left out. The kill response is a `Send` that always goes out.
- What happens after `gracefulQuit` sends its message is left out: closing the socket and killing the threads.
- The platform default charset is left out. Bytes and characters correspond one to one, and every message built by the peer is ASCII.
- Concurrent repairs that race with a departure are left out, because they need the threads.
- TcpServer.HandleConnection: it reads the first line of the stream only. The bytes after it are never read by the server, so they are not modelled.
- PingServer.HandlePacket: its own contract only bounds the replies. What each branch does is stated by `OnlySegmentsTouchTheFile`, `PingOutcomes`, `SegmentAppends`, `SegmentFaults` and the `Exchange` lemmas, under their preconditions. The receive buffer size `getMSS() + TRANSFER_HEADER_LEN` is computed with `int` wrap-around, and a negative size is the `NegativeArraySizeException` fault.
- PingServer.ReceivePing: its own contract states the unchanged file and the reply. What is reported, and when the thread ends, is stated for the whole datagram by `PingOutcomes`.
- FileSender.FixedEndsAcknowledged: it assumes `Honest` rounds, in which nothing arrives for a dropped datagram. The wait ends on any `ACK`, whatever cursor it carries, so a late or duplicate acknowledgement arriving while a dropped segment waits makes the loop skip that segment, in both builds (`StrayAckSkipsSegment`). The wait at src/FileSenderUDP.java:121-129 tests only the `ACK` token, and the 10-byte buffer it reads into (line 58) cannot hold a full cursor, so the code never meant to check the cursor. This is therefore not listed as a defect.
- FileSender.FixedDeliversFinalSegment: it assumes `Honest` rounds for the same reason. With a stray `ACK` the final segment, or any other, can be skipped.
- An MSS of zero or below is left out: `ValidConfig` and `WellFormed` require `0 < mss`, although `parseInt` accepts any `int`. With MSS 0, `size` stays 0, `file_len` never shrinks, and the loop sends header-only segments for ever. With a negative MSS, `size` is negative, and allocating or filling the send buffer (src/FileSenderUDP.java:98-100) throws `NegativeArraySizeException` or `IndexOutOfBoundsException`.
- The sender's buffer size `TRANSFER_HEADER_LEN + (int) size` (src/FileSenderUDP.java:98) is not computed in `int` arithmetic. When MSS is within `TRANSFER_HEADER_LEN` of `INT_MAX`, the real sum overflows, and the allocation would throw `NegativeArraySizeException`. The model composes the segment regardless.
- FileSender.CursorCountsBytes: it states the cursor only for files of at most `INT_MAX` bytes. Beyond that the cursor is the byte count wrapped to `int` (the invariant `Inv` states this).
- Exchange.FileArrives: it is stated for the corrected sender, with every datagram delivered and promptly acknowledged. It requires a header buffer of at least 28 bytes and an `int` receive buffer size. With a shorter `TRANSFER_HEADER_LEN`, a long header is cut off and may not read back.

## Findings

| source | as written | input that shows it | evidently intended | confidence | as-written member | corrected member |
|---|---|---|---|---|---|---|
| src/FileSenderUDP.java:75 | The loop runs `while (file_len > 0)`. After the final segment is composed `file_len` is 0, so the loop exits after that iteration even when the segment was dropped or its acknowledgement timed out. The final segment is then never retransmitted | MSS 2, a one-byte file, first datagram dropped: the loop ends with the retransmission flag set and nothing sent | The loop also continues while the retransmission flag is set (`file_len > 0 \|\| retrans_flag == 1`), so the last segment is resent until acknowledged | not executed | FileSender.AsWrittenAbandonsFinalSegment | FileSender.FixedEndsAcknowledged, FileSender.FixedDeliversFinalSegment |
| src/FileSenderUDP.java:81-86 | EOF = 1 is set only when `file_len < MSS`. When the file length is a positive multiple of MSS, the last segment has exactly MSS bytes and is sent with EOF = 0. The receiver never closes the file | MSS 2, a two-byte file: its only segment carries EOF 0 | The flag is set when the segment takes the rest of the file (`file_len <= MSS`) | not executed | FileSender.AsWrittenNeverFlagsMultiple | FileSender.FixedEof |

=== FILE: exchange.dfy ===
/**
 * The two sides of each datagram exchange put together: what the sender
 * writes is what the listener reads. A file segment composed by the
 * transfer loop is written and acknowledged with its own header fields,
 * the acknowledgement is recognised by the sender whatever its buffer held
 * before, and a ping is reported with the pinging peer's id and slot flag.
 */
module Exchange {
  import opened JavaLang
  import opened Ring
  import opened PingServer
  import FileSender
  import PingSender

  /** The receive buffer holds the sender's header text, then zeros; its tokens are the header's fields. */
  lemma HeaderReadsBack(c: Config, g: FileSender.Segment)
    requires IsInt32(c.peer) && IsInt32(g.cursor) && IsInt32(g.eof)
    requires |FileSender.HeaderText(c.peer, g.cursor, g.eof)| <= c.headerLen
    ensures ReadsAs(c, FileSender.Datagram(c, g), c.peer, g.cursor, g.eof)
  {
    var ht := FileSender.HeaderText(c.peer, g.cursor, g.eof);
    var d := FileSender.Datagram(c, g);
    var z := BufferedText(ht, c.headerLen);
    HeaderTokens(c.peer, g.cursor, g.eof);
    IntFields3("FS", c.peer, g.cursor, g.eof);
    HeaderTag(c.peer, g.cursor, g.eof);
    TaggedByText(d, ht, c.headerLen, "FS");
  }

  lemma HeaderTokens(peer: int, cursor: int, eof: int)
    ensures Tokens(FileSender.HeaderText(peer, cursor, eof))
              == ["FS", IntToString(peer), IntToString(cursor), IntToString(eof)]
  {
    var ht := FileSender.HeaderText(peer, cursor, eof);
    FileSender.HeaderTextTokens(peer, cursor, eof, "", "");
    assert "" + ht + "" == ht;
  }

  lemma HeaderTag(peer: int, cursor: int, eof: int)
    ensures |FileSender.HeaderText(peer, cursor, eof)| >= 2
    ensures FileSender.HeaderText(peer, cursor, eof)[0] == 'F' && FileSender.HeaderText(peer, cursor, eof)[1] == 'S'
  {
    var a := "FS" + " ";
    var b := a + IntToString(peer) + " ";
    var d := b + IntToString(cursor) + " ";
    var t := d + IntToString(eof);
    assert t == FileSender.HeaderText(peer, cursor, eof);
    assert t[0] == d[0] == b[0] == a[0] == 'F';
    assert t[1] == d[1] == b[1] == a[1] == 'S';
  }

  /** A buffer that starts with a copy of text starting with `tag` is tagged with it. */
  lemma TaggedByText(d: seq<byte>, t: string, n: nat, tag: string)
    requires IsLatin1(t) && 2 <= |t| <= n <= |d| && d[..n] == Fit(Encode(t), n)
    requires |tag| == 2 && t[0] == tag[0] && t[1] == tag[1]
    ensures Tagged(d, tag)
  {
    var e := Encode(t);
    assert d[0] == d[..n][0] == e[0];
    assert d[1] == d[..n][1] == e[1];
    var h := Decode(d[..2]);
    assert h[0] == tag[0] && h[1] == tag[1];
  }

  /**
   * A segment the transfer loop composed, received whole, extends the file
   * by exactly its payload (a fresh file when none was open), closes the
   * file on EOF = 1, and is acknowledged with the sending peer's id and the
   * segment's cursor.
   */
  lemma SegmentDelivered(c: Config, sink: Sink, g: FileSender.Segment, from: Endpoint)
    requires IsInt32(c.peer) && IsInt32(g.cursor) && IsInt32(g.eof)
    requires |FileSender.HeaderText(c.peer, g.cursor, g.eof)| <= c.headerLen
    requires |g.payload| <= c.mss && c.mss + c.headerLen <= INT_MAX
    ensures HandlePacket(c, sink, Packet(FileSender.Datagram(c, g), from))
            == Ok(Handled(Sink(g.eof != 1, (if sink.open then sink.file else []) + g.payload),
                          [Reply(from, Encode(AckText(c.peer, g.cursor)))], NoNotice))
  {
    HeaderReadsBack(c, g);
    DatagramSized(c, g);
    SegmentBytes(c, sink, FileSender.Datagram(c, g), from, c.peer, g.cursor, g.eof, g.payload);
  }

  /** A buffer's first `headerLen` bytes read back as an "FS" header with these fields. */
  predicate ReadsAs(c: Config, d: seq<byte>, peer: int, cursor: int, eof: int) {
    Tagged(d, "FS") && c.headerLen <= |d| && HeaderFields(d, c.headerLen) == Ok([peer, cursor, eof])
  }

  /** A datagram the receive buffer holds whole, carrying `payload` after the header. */
  predicate Sized(c: Config, d: seq<byte>, payload: seq<byte>) {
    Capacity(c) >= 2 && c.headerLen <= |d| <= Capacity(c) && d[c.headerLen..] == payload
  }

  lemma DatagramSized(c: Config, g: FileSender.Segment)
    requires |FileSender.HeaderText(c.peer, g.cursor, g.eof)| <= c.headerLen
    requires |g.payload| <= c.mss && c.mss + c.headerLen <= INT_MAX
    ensures Sized(c, FileSender.Datagram(c, g), g.payload)
  {
    HeaderTag(c.peer, g.cursor, g.eof);
  }

  /** `SegmentDelivered` for any bytes whose header reads back and that carry `payload` after it. */
  lemma SegmentBytes(c: Config, sink: Sink, d: seq<byte>, from: Endpoint, peer: int, cursor: int, eof: int, payload: seq<byte>)
    requires ReadsAs(c, d, peer, cursor, eof) && Sized(c, d, payload)
    ensures HandlePacket(c, sink, Packet(d, from))
            == Ok(Handled(Sink(eof != 1, (if sink.open then sink.file else []) + payload),
                          [Reply(from, Encode(AckText(peer, cursor)))], NoNotice))
  {
    var f := [peer, cursor, eof];
    SegmentAppends(c, sink, Packet(d, from), f);
    assert f[0] == peer && f[1] == cursor && f[2] == eof;
  }

  /**
   * The listener's acknowledgement, received into the sender's reused
   * ten-byte buffer, is recognised as an ACK whatever the buffer held
   * before and however long the numbers are.
   */
  lemma AckAccepted(buf: seq<byte>, seqNum: int, sent: int)
    requires |buf| == FileSender.ACK_BUFFER_LEN
    ensures FileSender.IsAck(FileSender.ReceiveInto(buf, Encode(AckText(seqNum, sent))))
  {
    var t := AckText(seqNum, sent);
    var r := FileSender.ReceiveInto(buf, Encode(t));
    var s := Decode(r);
    assert t[0] == 'A' && t[1] == 'C' && t[2] == 'K' && t[3] == ' ';
    assert s[..3] == "ACK" && s[3] == ' ';
    assert s == "ACK" + s[3..];
    FirstToken("ACK", s[3..]);
  }

  /**
   * A ping request that fits the listener's buffer is answered with this
   * peer's id and reported with the pinging peer's id and its slot flag
   * (1 from a peer whose first successor this peer is); the file is not
   * touched.
   */
  lemma PingAnswered(c: Config, sink: Sink, id: int, first: bool, from: Endpoint)
    requires IsInt32(id)
    requires |PingSender.CreatePingRequest(id, first)| <= Capacity(c)
    ensures HandlePacket(c, sink, Packet(Encode(PingSender.CreatePingRequest(id, first)), from))
            == Ok(Handled(sink, [Pong(c, from)], PingFrom(id, if first then 1 else 0)))
  {
    var m := PingSender.CreatePingRequest(id, first);
    var flag := if first then 1 else 0;
    var cap := Capacity(c);
    var e := Encode(m);
    PingTag(id, first);
    assert e[..|m|] == Fit(e, |m|);
    TaggedByText(e, m, |m|, "PG");
    DispatchPing(c, sink, Packet(e, from));
    PingParsed(id, first, cap);
  }

  /** The receive buffer's line is the request followed by zeros, and its two fields are the id and the flag. */
  lemma PingParsed(id: int, first: bool, cap: nat)
    requires IsInt32(id) && |PingSender.CreatePingRequest(id, first)| <= cap
    ensures var buf := Decode(Fit(Encode(PingSender.CreatePingRequest(id, first)), cap));
            && ReadLine(buf).Some?
            && IntFields(Tokens(ReadLine(buf).value), 1, 2) == Ok([id, if first then 1 else 0])
  {
    var m := PingSender.CreatePingRequest(id, first);
    var z := BufferedText(m, cap);
    ReadLineUnterminated(m + z, "");
    assert m + z + "" == m + z;
    IntFields2("PG", id, if first then 1 else 0);
  }

  lemma PingTag(id: int, first: bool)
    ensures |PingSender.CreatePingRequest(id, first)| >= 2
    ensures PingSender.CreatePingRequest(id, first)[0] == 'P' && PingSender.CreatePingRequest(id, first)[1] == 'G'
  {
  }

  // ------------------------------------------------------------ a whole transfer

  /** The datagrams of a sequence of segments, all from one source. */
  function Packets(c: Config, gs: seq<FileSender.Segment>, from: Endpoint): (ps: seq<Packet>)
    ensures |ps| == |gs|
    decreases |gs|
  {
    if |gs| == 0 then [] else [Packet(FileSender.Datagram(c, gs[0]), from)] + Packets(c, gs[1..], from)
  }

  function Payloads(gs: seq<FileSender.Segment>): seq<seq<byte>> {
    seq(|gs|, i requires 0 <= i < |gs| => gs[i].payload)
  }

  /**
   * A segment the listener's buffer holds whole and whose header reads back:
   * an `int` cursor, a 0/1 flag, and a header buffer long enough for any
   * header.
   */
  predicate Fits(c: Config, g: FileSender.Segment) {
    && IsInt32(c.peer) && IsInt32(g.cursor) && 0 <= g.eof <= 1
    && FileSender.LONGEST_HEADER <= c.headerLen
    && |g.payload| <= c.mss
  }

  /** Segments the listener can take in order: each fits, and none but the last is flagged. */
  predicate Deliverable(c: Config, gs: seq<FileSender.Segment>) {
    && (forall i :: 0 <= i < |gs| ==> Fits(c, gs[i]))
    && (forall i :: 0 <= i < |gs| - 1 ==> gs[i].eof != 1)
  }

  /** One acknowledgement per segment, in order, each naming its segment's cursor. */
  function Acks(c: Config, gs: seq<FileSender.Segment>, from: Endpoint): (rs: seq<Reply>)
    ensures |rs| == |gs|
    decreases |gs|
  {
    if |gs| == 0 then []
    else [Reply(from, Encode(AckText(c.peer, gs[0].cursor)))] + Acks(c, gs[1..], from)
  }

  /** What the listener does with a segment that fits: store its payload, acknowledge its cursor. */
  function Stored(c: Config, sink: Sink, g: FileSender.Segment, from: Endpoint): Handled {
    Handled(Sink(g.eof != 1, (if sink.open then sink.file else []) + g.payload),
            [Reply(from, Encode(AckText(c.peer, g.cursor)))], NoNotice)
  }

  /** A handler that treats every segment that fits the way the listener does. */
  ghost predicate StoresSegments(handle: Handler, c: Config) {
    forall sink: Sink, g: FileSender.Segment, from: Endpoint ::
      Fits(c, g) ==> handle(sink, Packet(FileSender.Datagram(c, g), from)) == Ok(Stored(c, sink, g, from))
  }

  lemma PeerStoresSegments(c: Config)
    requires c.mss + c.headerLen <= INT_MAX
    ensures StoresSegments(PeerHandler(c), c)
  {
    forall sink: Sink, g: FileSender.Segment, from: Endpoint | Fits(c, g)
      ensures PeerHandler(c)(sink, Packet(FileSender.Datagram(c, g), from)) == Ok(Stored(c, sink, g, from))
    {
      FileSender.HeaderTextBound(c.peer, g.cursor, g.eof);
      SegmentDelivered(c, sink, g, from);
    }
  }

  /**
   * Segments delivered in order, none but the last flagged as the end of
   * the file, extend the file by their payloads in that order, each is
   * acknowledged with its cursor, and the file is closed exactly when the
   * last one is flagged.
   */
  lemma DeliveredInOrder(c: Config, sink: Sink, gs: seq<FileSender.Segment>, from: Endpoint)
    requires |gs| > 0 && c.mss + c.headerLen <= INT_MAX && Deliverable(c, gs)
    ensures var s := Serve(PeerHandler(c), sink, Packets(c, gs, from));
            && s.fault.None? && s.notices == []
            && s.sink == Sink(gs[|gs| - 1].eof != 1,
                              (if sink.open then sink.file else []) + FileSender.Concat(Payloads(gs)))
            && s.replies == Acks(c, gs, from)
  {
    PeerStoresSegments(c);
    StoredInOrder(PeerHandler(c), c, sink, gs, from);
  }

  /** The induction behind `DeliveredInOrder`, for any handler that stores segments. */
  lemma {:induction false} StoredInOrder(handle: Handler, c: Config, sink: Sink, gs: seq<FileSender.Segment>, from: Endpoint)
    requires |gs| > 0 && StoresSegments(handle, c) && Deliverable(c, gs)
    ensures var s := Serve(handle, sink, Packets(c, gs, from));
            && s.fault.None? && s.notices == []
            && s.sink == Sink(gs[|gs| - 1].eof != 1,
                              (if sink.open then sink.file else []) + FileSender.Concat(Payloads(gs)))
            && s.replies == Acks(c, gs, from)
    decreases |gs|
  {
    var g := gs[0];
    var ps := Packets(c, gs, from);
    var tail := gs[1..];
    DeliverableTail(c, gs);
    PacketsTail(c, gs, from);
    ServeStep(handle, sink, ps, Stored(c, sink, g, from));
    PayloadsTail(gs);
    var base := if sink.open then sink.file else [];
    var file := Sink(g.eof != 1, base + g.payload);
    if |gs| > 1 {
      StoredInOrder(handle, c, file, tail, from);
      FileSender.Reassociate(base, g.payload, FileSender.Concat(Payloads(tail)));
      assert tail[|tail| - 1] == gs[|gs| - 1];
    } else {
      assert Packets(c, tail, from) == [];
      assert Payloads(tail) == [];
      assert g.payload + [] == g.payload;
    }
  }

  lemma DeliverableTail(c: Config, gs: seq<FileSender.Segment>)
    requires |gs| > 0 && Deliverable(c, gs)
    ensures Fits(c, gs[0]) && (|gs| > 1 ==> gs[0].eof != 1 && Deliverable(c, gs[1..]))
  {
    if |gs| > 1 {
      var tail := gs[1..];
      assert forall i :: 0 <= i < |tail| ==> tail[i] == gs[i + 1];
    }
  }

  lemma PacketsTail(c: Config, gs: seq<FileSender.Segment>, from: Endpoint)
    requires |gs| > 0
    ensures Packets(c, gs, from)[0] == Packet(FileSender.Datagram(c, gs[0]), from)
    ensures Packets(c, gs, from)[1..] == Packets(c, gs[1..], from)
  {
    var p := Packet(FileSender.Datagram(c, gs[0]), from);
    assert Packets(c, gs, from) == [p] + Packets(c, gs[1..], from);
  }

  lemma PayloadsTail(gs: seq<FileSender.Segment>)
    requires |gs| > 0
    ensures FileSender.Concat(Payloads(gs)) == gs[0].payload + FileSender.Concat(Payloads(gs[1..]))
  {
    var ps := Payloads(gs);
    assert ps[1..] == Payloads(gs[1..]);
  }

  /**
   * A transfer by the corrected sender that ran to its exit, in which no
   * datagram was dropped and every wait's first reply was an
   * acknowledgement, with a header buffer long enough for any header.
   */
  predicate LosslessTransfer(c: Config, source: seq<byte>, rounds: seq<FileSender.Round>) {
    && FileSender.ValidConfig(c) && FileSender.LONGEST_HEADER <= c.headerLen
    && (forall i :: 0 <= i < |rounds| ==> FileSender.Prompt(rounds[i]))
    && FileSender.Finished(FileSender.Fixed, FileSender.Run(FileSender.Fixed, c, source, FileSender.Start(source), rounds))
  }

  /**
   * A complete, lossless transfer from the corrected sender reaches a
   * listener with no file open as exactly the source file, closed, with
   * every segment acknowledged once.
   */
  lemma FileArrives(c: Config, source: seq<byte>, rounds: seq<FileSender.Round>, sink: Sink, from: Endpoint)
    requires LosslessTransfer(c, source, rounds) && |source| > 0 && !sink.open
    requires c.mss + c.headerLen <= INT_MAX
    ensures var t := FileSender.Run(FileSender.Fixed, c, source, FileSender.Start(source), rounds);
            var s := Serve(PeerHandler(c), sink, Packets(c, t.sent, from));
            s.sink == Sink(false, source) && s.fault.None? && s.replies == Acks(c, t.sent, from)
  {
    SentDeliversFile(c, source, rounds);
    DeliversFileArrives(c, sink, FileSender.Run(FileSender.Fixed, c, source, FileSender.Start(source), rounds).sent, source, from);
  }

  /** Segments that the listener can take in order, the last flagged, whose payloads make up `source`. */
  predicate DeliversFile(c: Config, gs: seq<FileSender.Segment>, source: seq<byte>) {
    && Deliverable(c, gs) && |gs| > 0 && gs[|gs| - 1].eof == 1
    && FileSender.Concat(Payloads(gs)) == source
  }

  lemma DeliversFileArrives(c: Config, sink: Sink, gs: seq<FileSender.Segment>, source: seq<byte>, from: Endpoint)
    requires DeliversFile(c, gs, source) && !sink.open && c.mss + c.headerLen <= INT_MAX
    ensures var s := Serve(PeerHandler(c), sink, Packets(c, gs, from));
            s.sink == Sink(false, source) && s.fault.None? && s.replies == Acks(c, gs, from)
  {
    PeerStoresSegments(c);
    StoredInOrder(PeerHandler(c), c, sink, gs, from);
    assert [] + source == source;
  }

  lemma SentDeliversFile(c: Config, source: seq<byte>, rounds: seq<FileSender.Round>)
    requires LosslessTransfer(c, source, rounds) && |source| > 0
    ensures DeliversFile(c, FileSender.Run(FileSender.Fixed, c, source, FileSender.Start(source), rounds).sent, source)
  {
    SentDeliverable(c, source, rounds);
    SentWholeFile(c, source, rounds);
  }

  /** What the corrected sender transmits without loss is deliverable, and carries the file's pieces. */
  lemma SentDeliverable(c: Config, source: seq<byte>, rounds: seq<FileSender.Round>)
    requires LosslessTransfer(c, source, rounds)
    ensures var t := FileSender.Run(FileSender.Fixed, c, source, FileSender.Start(source), rounds);
            Deliverable(c, t.sent) && Payloads(t.sent) == t.pieces
  {
    var t := FileSender.Run(FileSender.Fixed, c, source, FileSender.Start(source), rounds);
    SentOnceEach(c, source, rounds);
    PiecesFit(c, source, rounds);
    OnceEachDeliverable(c, t);
  }

  lemma SentOnceEach(c: Config, source: seq<byte>, rounds: seq<FileSender.Round>)
    requires LosslessTransfer(c, source, rounds)
    ensures FileSender.OnceEach(FileSender.Run(FileSender.Fixed, c, source, FileSender.Start(source), rounds))
  {
    FileSender.StartInv(FileSender.Fixed, c, source);
    FileSender.LosslessSendsEachPieceOnce(c, source, FileSender.Start(source), rounds);
  }

  lemma PiecesFit(c: Config, source: seq<byte>, rounds: seq<FileSender.Round>)
    requires LosslessTransfer(c, source, rounds)
    ensures AtMost(FileSender.Run(FileSender.Fixed, c, source, FileSender.Start(source), rounds).pieces, c.mss)
  {
    FileSender.FinishedSendsWholeFile(FileSender.Fixed, c, source, rounds);
    FileSender.PieceSizes(source, 0, c.mss);
  }

  predicate AtMost(pieces: seq<seq<byte>>, mss: int) {
    forall i :: 0 <= i < |pieces| ==> |pieces[i]| <= mss
  }

  /** Segments that carry the pieces once each, none flagged before the last, are deliverable. */
  lemma OnceEachDeliverable(c: Config, t: FileSender.Transfer)
    requires FileSender.OnceEach(t) && IsInt32(c.peer) && FileSender.LONGEST_HEADER <= c.headerLen
    requires AtMost(t.pieces, c.mss)
    ensures Deliverable(c, t.sent) && Payloads(t.sent) == t.pieces
  {
    assert forall i :: 0 <= i < |t.sent| ==> Fits(c, t.sent[i]);
  }

  /** ... and its last transmission is flagged, and the payloads make up the file. */
  lemma SentWholeFile(c: Config, source: seq<byte>, rounds: seq<FileSender.Round>)
    requires LosslessTransfer(c, source, rounds) && |source| > 0
    ensures var t := FileSender.Run(FileSender.Fixed, c, source, FileSender.Start(source), rounds);
            && |t.sent| > 0 && t.sent[|t.sent| - 1].eof == 1
            && FileSender.Concat(Payloads(t.sent)) == source
  {
    var t := FileSender.Run(FileSender.Fixed, c, source, FileSender.Start(source), rounds);
    SentDeliverable(c, source, rounds);
    FileSender.FinishedSendsWholeFile(FileSender.Fixed, c, source, rounds);
    PromptIsHonest(rounds);
    FileSender.FixedDeliversFinalSegment(c, source, rounds);
  }

  lemma PromptIsHonest(rounds: seq<FileSender.Round>)
    requires forall i :: 0 <= i < |rounds| ==> FileSender.Prompt(rounds[i])
    ensures FileSender.Honest(rounds)
  {
  }
}

=== FILE: file_sender.dfy ===
/**
 * The stop-and-wait file sender (`FileSenderUDP.beginFileTransfer`): the
 * file is cut into segments of at most MSS bytes, each prefixed with a
 * fixed-length text header "FS <peer> <cursor> <eof>", and sent one at a
 * time; a segment is resent, without reading further bytes, after a wait
 * for an acknowledgement timed out.
 *
 * The random drop, the datagrams that arrive while waiting and the timeout
 * are inputs: one `Round` per loop iteration.
 *
 * `Build` selects between the loop as written and the loop with the two
 * corrections described in the README (the end-of-file flag on a final
 * full-size segment, and retransmission of a final segment that timed out).
 */
module FileSender {
  import opened JavaLang
  import opened Ring

  /** Size of the buffer acknowledgements are received into. */
  const ACK_BUFFER_LEN: nat := 10

  datatype Build = AsWritten | Fixed

  predicate ValidConfig(c: Config) {
    IsInt32(c.peer) && 0 < c.mss <= INT_MAX
  }

  // ------------------------------------------------------------ reference

  /** The file from offset `from` on, cut into consecutive pieces of MSS bytes, the last one possibly shorter. */
  function Pieces(src: seq<byte>, from: nat, mss: int): seq<seq<byte>>
    requires mss > 0 && from <= |src|
    decreases |src| - from
  {
    if from == |src| then []
    else
      var n := Min(mss, |src| - from);
      [src[from..from + n]] + Pieces(src, from + n, mss)
  }

  function Concat(cs: seq<seq<byte>>): seq<byte>
    decreases |cs|
  {
    if |cs| == 0 then [] else cs[0] + Concat(cs[1..])
  }

  /** The pieces put back together are the file from `from` on. */
  lemma {:induction false} ConcatPieces(src: seq<byte>, from: nat, mss: int)
    requires mss > 0 && from <= |src|
    ensures Concat(Pieces(src, from, mss)) == src[from..]
    decreases |src| - from
  {
    if from < |src| {
      var n := Min(mss, |src| - from);
      ConcatPieces(src, from + n, mss);
      assert ([src[from..from + n]] + Pieces(src, from + n, mss))[1..] == Pieces(src, from + n, mss);
      assert src[from..from + n] + src[from + n..] == src[from..];
    }
  }

  /** `n` is a multiple of `m`. */
  predicate Multiple(n: int, m: int)
    requires m > 0
    decreases n
  {
    n == 0 || (n >= m && Multiple(n - m, m))
  }

  lemma {:induction false} MultiplePlus(n: int, m: int)
    requires m > 0 && n >= 0 && Multiple(n, m)
    ensures Multiple(n + m, m)
  {
  }

  /** A multiple of `m` plus a positive amount below `m` is not a multiple of `m`. */
  lemma {:induction false} NotMultiplePlus(n: int, r: int, m: int)
    requires m > 0 && Multiple(n, m) && 0 < r < m
    ensures !Multiple(n + r, m)
    decreases n
  {
    if n != 0 {
      NotMultiplePlus(n - m, r, m);
    }
  }

  /** Every piece is non-empty and at most MSS; all but the last are full; the last is full exactly when MSS divides the length. */
  lemma {:induction false} PieceSizes(src: seq<byte>, from: nat, mss: int)
    requires mss > 0 && from <= |src|
    ensures var ps := Pieces(src, from, mss);
            && (forall i :: 0 <= i < |ps| ==> 0 < |ps[i]| <= mss)
            && (forall i :: 0 <= i < |ps| - 1 ==> |ps[i]| == mss)
            && (from < |src| ==> (|ps[|ps| - 1]| == mss <==> Multiple(|src| - from, mss)))
    decreases |src| - from
  {
    if from < |src| {
      var n := Min(mss, |src| - from);
      PieceSizes(src, from + n, mss);
      var ps := Pieces(src, from, mss);
      var rest := Pieces(src, from + n, mss);
      assert ps == [src[from..from + n]] + rest;
      assert forall i :: 0 < i < |ps| ==> ps[i] == rest[i - 1];
      if |src| - from < mss {
        assert !Multiple(|src| - from, mss) by {
          NotMultiplePlus(0, |src| - from, mss);
        }
      }
    }
  }

  /** There are as many pieces as MSS-sized blocks needed to cover the rest of the file: the length divided by MSS, rounded up. */
  lemma {:induction false} PiecesCount(src: seq<byte>, from: nat, mss: int)
    requires mss > 0 && from <= |src|
    ensures |Pieces(src, from, mss)| * mss >= |src| - from
    ensures |Pieces(src, from, mss)| * mss < |src| - from + mss
    decreases |src| - from
  {
    if from < |src| {
      var n := Min(mss, |src| - from);
      PiecesCount(src, from + n, mss);
      var k := |Pieces(src, from + n, mss)|;
      assert |Pieces(src, from, mss)| == k + 1;
      assert (k + 1) * mss == k * mss + mss;
    }
  }

  // ------------------------------------------------------------ header

  /** The header's text: "FS <peer> <cursor> <eof>". */
  function HeaderText(peer: int, cursor: int, eof: int): (t: string)
    ensures Tokens(t) == ["FS", IntToString(peer), IntToString(cursor), IntToString(eof)]
    ensures Trim(t) == t
    ensures IsLatin1(t)
  {
    var a := "FS" + " ";
    Latin1Concat(a, IntToString(peer));
    Latin1Concat(a + IntToString(peer), " ");
    var b := a + IntToString(peer) + " ";
    Latin1Concat(b, IntToString(cursor));
    Latin1Concat(b + IntToString(cursor), " ");
    var d := b + IntToString(cursor) + " ";
    Latin1Concat(d, IntToString(eof));
    var ts := ["FS", IntToString(peer), IntToString(cursor), IntToString(eof)];
    var t := "FS" + " " + IntToString(peer) + " " + IntToString(cursor) + " " + IntToString(eof);
    Join4(ts[0], ts[1], ts[2], ts[3]);
    JoinWords(ts);
    TokensOfWords("", ts, "");
    TrimTrimmed(t);
    assert "" + t + "" == t;
    t
  }

  /** The header reads back as the four fields, whatever surrounds it. */
  lemma HeaderTextTokens(peer: int, cursor: int, eof: int, pre: string, post: string)
    requires AllWhite(pre) && AllWhite(post)
    ensures Tokens(pre + HeaderText(peer, cursor, eof) + post)
              == ["FS", IntToString(peer), IntToString(cursor), IntToString(eof)]
    ensures '\n' !in HeaderText(peer, cursor, eof) && '\r' !in HeaderText(peer, cursor, eof)
  {
    var ts := ["FS", IntToString(peer), IntToString(cursor), IntToString(eof)];
    Join4(ts[0], ts[1], ts[2], ts[3]);
    assert Join(ts) == HeaderText(peer, cursor, eof);
    JoinWords(ts);
    TokensOfWords(pre, ts, post);
  }

  /**
   * `createPacketHeader`: the header text copied into a buffer of
   * `headerLen` bytes, cut off when longer and zero-filled when shorter.
   */
  function CreatePacketHeader(c: Config, cursor: int, eof: int): (h: seq<byte>)
    ensures |h| == c.headerLen
    ensures var t := HeaderText(c.peer, cursor, eof);
            forall i :: 0 <= i < c.headerLen ==> h[i] as int == if i < |t| then t[i] as int else 0
  {
    Fit(Encode(HeaderText(c.peer, cursor, eof)), c.headerLen)
  }

  /** The longest header text any segment can have: "FS", two `int`s and a one-digit flag. */
  const LONGEST_HEADER: nat := 28

  lemma HeaderTextBound(peer: int, cursor: int, eof: int)
    requires IsInt32(peer) && IsInt32(cursor) && 0 <= eof <= 1
    ensures |HeaderText(peer, cursor, eof)| <= LONGEST_HEADER
  {
    IntToStringLength(peer);
    IntToStringLength(cursor);
    assert IntToString(eof) == Digits(eof);
  }

  // ------------------------------------------------------------ sender state

  /** What `send_buffer` holds: the header's cursor and flag, and the file bytes after the header. */
  datatype Segment = Segment(cursor: int, eof: int, payload: seq<byte>)

  /** The bytes of a composed datagram: the fixed-length header, then the payload. */
  function Datagram(c: Config, g: Segment): (d: seq<byte>)
    ensures |d| == c.headerLen + |g.payload|
    ensures d[..c.headerLen] == CreatePacketHeader(c, g.cursor, g.eof)
    ensures d[c.headerLen..] == g.payload
  {
    CreatePacketHeader(c, g.cursor, g.eof) + g.payload
  }

  /**
   * The loop's variables: `file_len` (bytes not yet read), `curr_len` (the
   * cursor, a Java `int`), `eof_flag`, `retrans_flag`, `send_buffer` (null
   * until the first segment is composed) and `rcv_buffer` (reused by every
   * receive).
   */
  datatype Sender = Sender(
    remaining: int,
    cursor: int,
    eof: int,
    retrans: bool,
    composed: Option<Segment>,
    ackBuf: seq<byte>)

  /** The sender before the loop: nothing read, no flag raised, a zeroed acknowledgement buffer. */
  function Start(source: seq<byte>): (s: Sender)
    ensures Done(source, s) == 0 && s.cursor == 0 && s.eof == 0
    ensures !s.retrans && s.composed.None? && s.ackBuf == Zeros(ACK_BUFFER_LEN)
    // the loop runs at all exactly when the file is not empty, in either build
    ensures Continues(AsWritten, s) <==> |source| > 0
    ensures Continues(Fixed, s) <==> |source| > 0
  {
    Sender(|source|, 0, 0, false, None, Zeros(ACK_BUFFER_LEN))
  }

  /** Whether the segment composed with `remaining` bytes left gets the end-of-file flag. */
  predicate EndsFile(b: Build, remaining: int, mss: int) {
    match b
    case AsWritten => remaining < mss
    case Fixed => remaining <= mss
  }

  /** The loop condition. */
  predicate Continues(b: Build, s: Sender) {
    match b
    case AsWritten => s.remaining > 0
    case Fixed => s.remaining > 0 || s.retrans
  }

  /** Bytes of the file read so far. */
  function Done(source: seq<byte>, s: Sender): int {
    |source| - s.remaining
  }

  /** The send buffer holds the header and the piece that ends at the read position. */
  predicate LastSegment(b: Build, c: Config, source: seq<byte>, s: Sender)
    requires ValidConfig(c) && 0 <= s.remaining <= |source|
  {
    var done := Done(source, s);
    && s.composed.Some?
    && var g := s.composed.value;
    && 0 < |g.payload| <= c.mss && |g.payload| <= done
    && Multiple(done - |g.payload|, c.mss)
    && (|g.payload| == c.mss || s.remaining == 0)
    && s.eof == (if EndsFile(b, s.remaining + |g.payload|, c.mss) then 1 else 0)
    && g.cursor == s.cursor && g.eof == s.eof
    && g.payload == source[done - |g.payload|..done]
  }

  /**
   * What the loop's statements need of its variables: a positive MSS, a
   * read position inside the file, a receive buffer of the allocated size,
   * and a composed segment whenever one is to be resent.
   */
  predicate WellFormed(c: Config, source: seq<byte>, s: Sender) {
    && c.mss > 0
    && 0 <= s.remaining <= |source|
    && |s.ackBuf| == ACK_BUFFER_LEN
    && (s.retrans ==> s.composed.Some?)
  }

  /** What holds at the top of every loop iteration. */
  predicate Inv(b: Build, c: Config, source: seq<byte>, s: Sender) {
    && ValidConfig(c)
    && WellFormed(c, source, s)
    && s.cursor == Wrap32(Done(source, s))
    && (s.retrans ==> Done(source, s) > 0)
    && (Done(source, s) == 0 ==> s.eof == 0 && s.composed.None?)
    && (Done(source, s) > 0 ==> LastSegment(b, c, source, s))
  }

  lemma StartInv(b: Build, c: Config, source: seq<byte>)
    requires ValidConfig(c)
    ensures Inv(b, c, source, Start(source))
  {
  }

  /**
   * A fresh segment: `min(MSS, remaining)` bytes read from the file, the
   * cursor advanced by that size (in `int` arithmetic), the end-of-file flag
   * set when this is the last segment, and header and bytes composed into
   * the send buffer.
   */
  function Compose(b: Build, c: Config, source: seq<byte>, s: Sender): (s': Sender)
    requires WellFormed(c, source, s) && s.remaining > 0
    ensures WellFormed(c, source, s')
    ensures var size := s.remaining - s'.remaining;
            0 < size <= c.mss && size == Min(c.mss, s.remaining)
    ensures s'.composed.Some? && s'.composed.value.payload == source[Done(source, s)..Done(source, s')]
    ensures s'.retrans == s.retrans && s'.ackBuf == s.ackBuf
  {
    var size := if s.remaining < c.mss then s.remaining else c.mss;
    var eof := if EndsFile(b, s.remaining, c.mss) then 1 else s.eof;
    var done := Done(source, s);
    var cursor := Wrap32(s.cursor + size);
    s.(remaining := s.remaining - size, cursor := cursor, eof := eof,
       composed := Some(Segment(cursor, eof, source[done..done + size])))
  }

  /**
   * Composing keeps the invariant: the cursor still counts the bytes read,
   * modulo 2^32, and the flag is set exactly when this segment ends the file.
   */
  lemma ComposeKeepsInv(b: Build, c: Config, source: seq<byte>, s: Sender)
    requires Inv(b, c, source, s) && s.remaining > 0
    ensures Inv(b, c, source, Compose(b, c, source, s))
    ensures Compose(b, c, source, s).eof == 1 <==> EndsFile(b, s.remaining, c.mss)
  {
    var s' := Compose(b, c, source, s);
    var size := s.remaining - s'.remaining;
    ReadPositionAligned(b, c, source, s);
    assert s'.cursor == Wrap32(Done(source, s')) by {
      WrapAdd(Done(source, s), size);
    }
    assert LastSegment(b, c, source, s');
  }

  /** The piece a fresh segment carries is the next of the file's MSS pieces. */
  lemma ComposeTakesNextPiece(b: Build, c: Config, source: seq<byte>, s: Sender)
    requires WellFormed(c, source, s) && s.remaining > 0
    ensures var s' := Compose(b, c, source, s);
            Pieces(source, Done(source, s), c.mss) == [s'.composed.value.payload] + Pieces(source, Done(source, s'), c.mss)
  {
  }

  /** While bytes remain, the last segment was full: no end-of-file flag yet, and the read position is aligned. */
  lemma ReadPositionAligned(b: Build, c: Config, source: seq<byte>, s: Sender)
    requires Inv(b, c, source, s) && s.remaining > 0
    ensures s.eof == 0 && Multiple(Done(source, s), c.mss)
  {
    var done := Done(source, s);
    if done > 0 {
      var prev := |s.composed.value.payload|;
      assert prev == c.mss;
      MultiplePlus(done - prev, c.mss);
    }
  }

  lemma WrapAdd(a: int, d: int)
    ensures Wrap32(Wrap32(a) + d) == Wrap32(a + d)
  {
    var w := Wrap32(a);
    var k := (w - a) / TWO_32;
    assert w - a == TWO_32 * k;
    assert (w + d - INT_MIN) == (a + d - INT_MIN) + TWO_32 * k;
    ModShift(a + d - INT_MIN, k);
  }

  lemma ModShift(x: int, k: int)
    ensures (x + TWO_32 * k) % TWO_32 == x % TWO_32
  {
    var q := x / TWO_32;
    var r := x % TWO_32;
    assert x + TWO_32 * k == TWO_32 * (q + k) + r;
  }

  // ------------------------------------------------------------ waiting for an ACK

  /** A receive into the reused buffer overwrites only as many bytes as arrived. */
  function ReceiveInto(buf: seq<byte>, d: seq<byte>): (r: seq<byte>)
    requires |buf| == ACK_BUFFER_LEN
    ensures |r| == ACK_BUFFER_LEN
    ensures forall i :: 0 <= i < ACK_BUFFER_LEN ==> r[i] == if i < |d| then d[i] else buf[i]
  {
    var n := Min(|d|, ACK_BUFFER_LEN);
    d[..n] + buf[n..]
  }

  /** `ack_data[0].equals("ACK")` on the whole buffer, trimmed and split. */
  predicate IsAck(buf: seq<byte>) {
    Tokens(Decode(buf))[0] == "ACK"
  }

  /** The buffer after receiving each of `replies` in turn. */
  function Received(buf: seq<byte>, replies: seq<seq<byte>>): (r: seq<byte>)
    requires |buf| == ACK_BUFFER_LEN
    ensures |r| == ACK_BUFFER_LEN
    decreases |replies|
  {
    if |replies| == 0 then buf
    else Received(ReceiveInto(buf, replies[0]), replies[1..])
  }

  /** The buffer holds an acknowledgement once the first `n` replies have been received into it. */
  predicate AckAfter(buf: seq<byte>, replies: seq<seq<byte>>, n: nat)
    requires |buf| == ACK_BUFFER_LEN && 0 < n <= |replies|
    decreases n
  {
    var b := ReceiveInto(buf, replies[0]);
    if n == 1 then IsAck(b) else AckAfter(b, replies[1..], n - 1)
  }

  lemma {:induction false} AckAfterMeans(buf: seq<byte>, replies: seq<seq<byte>>, n: nat)
    requires |buf| == ACK_BUFFER_LEN && 0 < n <= |replies|
    ensures AckAfter(buf, replies, n) <==> IsAck(Received(buf, replies[..n]))
    decreases n
  {
    ReceivedStep(buf, replies, n);
    if n > 1 {
      AckAfterMeans(ReceiveInto(buf, replies[0]), replies[1..], n - 1);
    } else {
      assert replies[1..][..0] == [];
    }
  }

  lemma ReceivedStep(buf: seq<byte>, replies: seq<seq<byte>>, n: nat)
    requires |buf| == ACK_BUFFER_LEN && 0 < n <= |replies|
    ensures Received(buf, replies[..n]) == Received(ReceiveInto(buf, replies[0]), replies[1..][..n - 1])
  {
    assert replies[..n][1..] == replies[1..][..n - 1];
  }

  /** A datagram whose first four bytes read "ACK ". */
  predicate StartsAck(d: seq<byte>) {
    |d| >= 4 && Decode(d[..4]) == "ACK "
  }

  /** Such a datagram is recognised as an acknowledgement whatever the reused buffer held before. */
  lemma AckRecognised(buf: seq<byte>, d: seq<byte>)
    requires |buf| == ACK_BUFFER_LEN && StartsAck(d)
    ensures IsAck(ReceiveInto(buf, d))
  {
    var s := Decode(ReceiveInto(buf, d));
    var h := Decode(d[..4]);
    assert h[0] == 'A' && h[1] == 'C' && h[2] == 'K' && h[3] == ' ';
    assert s[0] == 'A' && s[1] == 'C' && s[2] == 'K' && s[3] == ' ';
    assert s == "ACK" + s[3..];
    FirstToken("ACK", s[3..]);
  }

  datatype Wait = Wait(ackBuf: seq<byte>, acked: bool)

  /**
   * The wait for an acknowledgement: datagrams are read until the buffer's
   * first token is "ACK" (whatever cursor follows); when none of the
   * datagrams that arrive in time does that, the wait times out.
   */
  function AwaitAck(buf: seq<byte>, replies: seq<seq<byte>>): (w: Wait)
    requires |buf| == ACK_BUFFER_LEN
    ensures |w.ackBuf| == ACK_BUFFER_LEN
    ensures w.acked ==> |replies| > 0
    decreases |replies|
  {
    if |replies| == 0 then Wait(buf, false)
    else
      var b := ReceiveInto(buf, replies[0]);
      if IsAck(b) then Wait(b, true) else AwaitAck(b, replies[1..])
  }

  /** Some prefix of the replies leaves an acknowledgement in the buffer. */
  predicate SomeAck(buf: seq<byte>, replies: seq<seq<byte>>)
    requires |buf| == ACK_BUFFER_LEN
  {
    exists n :: 0 < n <= |replies| && AckAfter(buf, replies, n)
  }

  /**
   * The wait ends acknowledged exactly when, after some prefix of the
   * replies, the buffer's first token is "ACK"; otherwise every reply has
   * been received into the buffer.
   */
  lemma {:induction false} AwaitAckSpec(buf: seq<byte>, replies: seq<seq<byte>>)
    requires |buf| == ACK_BUFFER_LEN
    ensures AwaitAck(buf, replies).acked <==> SomeAck(buf, replies)
    ensures !AwaitAck(buf, replies).acked ==> AwaitAck(buf, replies).ackBuf == Received(buf, replies)
    decreases |replies|
  {
    if |replies| > 0 {
      var b := ReceiveInto(buf, replies[0]);
      SomeAckStep(buf, replies);
      if !IsAck(b) {
        AwaitAckSpec(b, replies[1..]);
      }
    }
  }

  /** Past the first reply, an acknowledgement after `n` replies is one after `n - 1` of the rest. */
  lemma SomeAckStep(buf: seq<byte>, replies: seq<seq<byte>>)
    requires |buf| == ACK_BUFFER_LEN && |replies| > 0
    ensures SomeAck(buf, replies) <==> IsAck(ReceiveInto(buf, replies[0])) || SomeAck(ReceiveInto(buf, replies[0]), replies[1..])
  {
    var b := ReceiveInto(buf, replies[0]);
    var rest := replies[1..];
    if SomeAck(buf, replies) {
      var n :| 0 < n <= |replies| && AckAfter(buf, replies, n);
      if n > 1 {
        assert AckAfter(b, rest, n - 1);
        assert SomeAck(b, rest);
      }
    }
    if IsAck(b) {
      assert AckAfter(buf, replies, 1);
    }
    if SomeAck(b, rest) {
      var n :| 0 < n <= |rest| && AckAfter(b, rest, n);
      assert AckAfter(buf, replies, n + 1);
    }
  }

  // ------------------------------------------------------------ one iteration

  /** The oracle for one iteration: whether the simulated loss drops the datagram, and what arrives in time. */
  datatype Round = Round(dropped: bool, replies: seq<seq<byte>>)

  /** The segment transmitted in an iteration, if the datagram was not dropped. */
  datatype Step = Step(next: Sender, sent: Option<Segment>)

  /**
   * One loop iteration: compose a fresh segment unless retransmitting, send
   * it unless dropped (which clears the retransmission flag), then wait; a
   * timeout sets the flag.
   */
  function Iterate(b: Build, c: Config, source: seq<byte>, s: Sender, rd: Round): (st: Step)
    requires WellFormed(c, source, s) && Continues(b, s)
    ensures WellFormed(c, source, st.next) && st.next.composed.Some?
    // a retransmission reads nothing and resends the same segment
    ensures s.retrans ==> st.next.remaining == s.remaining && st.next.cursor == s.cursor
                          && st.next.composed == s.composed && st.next.eof == s.eof
    // otherwise a fresh segment is composed
    ensures !s.retrans ==> && st.next.remaining == Compose(b, c, source, s).remaining
                           && st.next.composed == Compose(b, c, source, s).composed
    ensures st.sent.Some? <==> !rd.dropped
    ensures st.sent.Some? ==> Some(st.sent.value) == st.next.composed
    // the flag is set only by a timeout and cleared only by an actual send
    ensures st.next.retrans <==> !AwaitAck(s.ackBuf, rd.replies).acked || (s.retrans && rd.dropped)
    ensures st.next.ackBuf == AwaitAck(s.ackBuf, rd.replies).ackBuf
  {
    var s1 := if s.retrans then s else Compose(b, c, source, s);
    var retrans := if rd.dropped then s1.retrans else false;
    var w := AwaitAck(s1.ackBuf, rd.replies);
    var next := s1.(ackBuf := w.ackBuf, retrans := if w.acked then retrans else true);
    Step(next, if rd.dropped then None else s1.composed)
  }

  /** An iteration keeps the invariant. */
  lemma IterateKeepsInv(b: Build, c: Config, source: seq<byte>, s: Sender, rd: Round)
    requires Inv(b, c, source, s) && Continues(b, s)
    ensures Inv(b, c, source, Iterate(b, c, source, s, rd).next)
  {
    var s1 := if s.retrans then s else Compose(b, c, source, s);
    if !s.retrans {
      ComposeKeepsInv(b, c, source, s);
    }
    assert Done(source, s1) > 0;
    var next := Iterate(b, c, source, s, rd).next;
    assert next == s1.(retrans := next.retrans, ackBuf := next.ackBuf);
    FlagsKeepInv(b, c, source, s1, next.retrans, next.ackBuf);
  }

  /** The invariant does not depend on the flag or the acknowledgement buffer's contents. */
  lemma FlagsKeepInv(b: Build, c: Config, source: seq<byte>, s: Sender, retrans: bool, ackBuf: seq<byte>)
    requires Inv(b, c, source, s) && |ackBuf| == ACK_BUFFER_LEN && Done(source, s) > 0
    ensures Inv(b, c, source, s.(retrans := retrans, ackBuf := ackBuf))
  {
    var s' := s.(retrans := retrans, ackBuf := ackBuf);
    assert Done(source, s') == Done(source, s);
    assert LastSegment(b, c, source, s');
  }

  // ------------------------------------------------------------ the loop

  /**
   * The loop run against the rounds the oracle supplies (it may stop before
   * the loop exits when the rounds run out): the final variables, every
   * transmitted segment (each goes out as `Datagram(c, g)`), and the payload
   * of every freshly composed segment.
   */
  datatype Transfer = Transfer(last: Sender, sent: seq<Segment>, pieces: seq<seq<byte>>)

  function Run(b: Build, c: Config, source: seq<byte>, s: Sender, rounds: seq<Round>): (t: Transfer)
    requires WellFormed(c, source, s)
    ensures WellFormed(c, source, t.last)
    ensures |rounds| == 0 || !Continues(b, s) ==> t == Transfer(s, [], [])
    decreases |rounds|
  {
    if |rounds| == 0 || !Continues(b, s) then Transfer(s, [], [])
    else
      var st := Iterate(b, c, source, s, rounds[0]);
      var rest := Run(b, c, source, st.next, rounds[1..]);
      var sent := match st.sent case Some(g) => [g] case None => [];
      var pieces := if s.retrans then [] else [st.next.composed.value.payload];
      Transfer(rest.last, sent + rest.sent, pieces + rest.pieces)
  }

  /** One iteration of `Run` unfolded: the iteration's step and the run of the remaining rounds. */
  lemma RunStep(b: Build, c: Config, source: seq<byte>, s: Sender, rounds: seq<Round>) returns (st: Step, rest: Transfer, t: Transfer)
    requires WellFormed(c, source, s) && |rounds| > 0 && Continues(b, s)
    ensures st == Iterate(b, c, source, s, rounds[0]) && WellFormed(c, source, st.next)
    ensures rest == Run(b, c, source, st.next, rounds[1..])
    ensures t == Run(b, c, source, s, rounds)
    ensures st.next.composed.Some?
    ensures t == Transfer(rest.last,
                          (if rounds[0].dropped then [] else [st.next.composed.value]) + rest.sent,
                          (if s.retrans then [] else [st.next.composed.value.payload]) + rest.pieces)
  {
    st := Iterate(b, c, source, s, rounds[0]);
    rest := Run(b, c, source, st.next, rounds[1..]);
    t := Run(b, c, source, s, rounds);
  }

  /** One iteration of `Run` as far as the composed segments go. */
  lemma PieceStep(b: Build, c: Config, source: seq<byte>, s: Sender, rounds: seq<Round>) returns (next: Sender, rest: Transfer, t: Transfer)
    requires WellFormed(c, source, s) && |rounds| > 0 && Continues(b, s)
    ensures WellFormed(c, source, next) && next.composed.Some?
    ensures rest == Run(b, c, source, next, rounds[1..])
    ensures t == Run(b, c, source, s, rounds)
    ensures t.last == rest.last
    ensures s.retrans ==> t.pieces == rest.pieces && next.composed == s.composed
    ensures !s.retrans ==> t.pieces == [next.composed.value.payload] + rest.pieces
  {
    var st: Step;
    st, rest, t := RunStep(b, c, source, s, rounds);
    next := st.next;
    if s.retrans {
      assert t.pieces == [] + rest.pieces;
    }
  }

  /** Every state the loop reaches satisfies the invariant. */
  lemma {:induction false} RunKeepsInv(b: Build, c: Config, source: seq<byte>, s: Sender, rounds: seq<Round>)
    requires Inv(b, c, source, s)
    ensures Inv(b, c, source, Run(b, c, source, s, rounds).last)
    decreases |rounds|
  {
    if |rounds| > 0 && Continues(b, s) {
      var st, rest, t := RunStep(b, c, source, s, rounds);
      IterateKeepsInv(b, c, source, s, rounds[0]);
      RunKeepsInv(b, c, source, st.next, rounds[1..]);
    }
  }

  /** The loop has exited (rather than run out of rounds). */
  predicate Finished(b: Build, t: Transfer) {
    !Continues(b, t.last)
  }

  /**
   * The fresh segments are the file's MSS pieces, in order: the payloads of
   * one run followed by the pieces of what is left are the pieces of what
   * was left before.
   */
  lemma {:induction false} FreshArePieces(b: Build, c: Config, source: seq<byte>, s: Sender, rounds: seq<Round>)
    requires WellFormed(c, source, s)
    ensures var t := Run(b, c, source, s, rounds);
            t.pieces + Pieces(source, Done(source, t.last), c.mss) == Pieces(source, Done(source, s), c.mss)
    decreases |rounds|
  {
    if |rounds| > 0 && Continues(b, s) {
      var st, rest, t := RunStep(b, c, source, s, rounds);
      FreshArePieces(b, c, source, st.next, rounds[1..]);
      var p := if s.retrans then [] else [st.next.composed.value.payload];
      assert p + Pieces(source, Done(source, st.next), c.mss) == Pieces(source, Done(source, s), c.mss) by {
        if !s.retrans {
          ComposeTakesNextPiece(b, c, source, s);
          var s' := Compose(b, c, source, s);
          assert st.next.composed == s'.composed;
          assert Done(source, st.next) == Done(source, s');
          assert p == [s'.composed.value.payload];
        } else {
          assert Done(source, st.next) == Done(source, s);
          assert p == [];
        }
      }
      Chain(t.pieces, p, rest.pieces, Pieces(source, Done(source, t.last), c.mss),
            Pieces(source, Done(source, st.next), c.mss), Pieces(source, Done(source, s), c.mss));
    }
  }

  /** The step that chains one iteration's pieces onto the rest of the run's. */
  lemma Chain<T>(all: seq<T>, first: seq<T>, rest: seq<T>, tail: seq<T>, mid: seq<T>, whole: seq<T>)
    requires all == first + rest && rest + tail == mid && first + mid == whole
    ensures all + tail == whole
  {
  }

  lemma Reassociate<T>(a: seq<T>, b: seq<T>, c: seq<T>)
    ensures (a + b) + c == a + (b + c)
  {
  }

  /**
   * A completed transfer composed exactly the file's pieces, in order, so
   * their concatenation is the file.
   */
  lemma FinishedSendsWholeFile(b: Build, c: Config, source: seq<byte>, rounds: seq<Round>)
    requires ValidConfig(c)
    requires Finished(b, Run(b, c, source, Start(source), rounds))
    ensures Run(b, c, source, Start(source), rounds).pieces == Pieces(source, 0, c.mss)
    ensures Concat(Run(b, c, source, Start(source), rounds).pieces) == source
  {
    StartInv(b, c, source);
    FreshArePieces(b, c, source, Start(source), rounds);
    ConcatPieces(source, 0, c.mss);
  }

  /** The send buffer ends up holding the last fresh piece, and is untouched while nothing fresh is composed. */
  lemma {:induction false} LastPiece(b: Build, c: Config, source: seq<byte>, s: Sender, rounds: seq<Round>)
    requires WellFormed(c, source, s)
    ensures var t := Run(b, c, source, s, rounds);
            && (|t.pieces| == 0 ==> t.last.composed == s.composed)
            && (|t.pieces| > 0 ==> t.last.composed.Some? && t.last.composed.value.payload == t.pieces[|t.pieces| - 1])
    decreases |rounds|
  {
    if |rounds| > 0 && Continues(b, s) {
      var next, rest, t := PieceStep(b, c, source, s, rounds);
      LastPiece(b, c, source, next, rounds[1..]);
      if !s.retrans {
        LastOfConcat([next.composed.value.payload], rest.pieces);
      }
    }
  }

  lemma LastOfConcat<T>(a: seq<T>, b: seq<T>)
    ensures |b| > 0 ==> (a + b)[|a + b| - 1] == b[|b| - 1]
    ensures |b| == 0 ==> a + b == a
  {
  }

  /** An empty file sends nothing at all. */
  lemma EmptyFileSendsNothing(b: Build, c: Config, rounds: seq<Round>)
    requires ValidConfig(c)
    ensures Run(b, c, [], Start([]), rounds) == Transfer(Start([]), [], [])
  {
  }

  /** The cursor in the header is the number of bytes read so far, while that fits in an `int`. */
  lemma CursorCountsBytes(b: Build, c: Config, source: seq<byte>, s: Sender)
    requires Inv(b, c, source, s) && |source| <= INT_MAX
    ensures s.cursor == Done(source, s)
    ensures s.composed.Some? ==> s.composed.value.cursor == Done(source, s)
  {
  }

  // ------------------------------------------------------------ end of file

  /** As written, the flag is set exactly on a final piece shorter than MSS. */
  lemma AsWrittenEof(c: Config, source: seq<byte>, s: Sender)
    requires Inv(AsWritten, c, source, s)
    ensures s.eof == 1 <==> s.remaining == 0 && |source| > 0 && !Multiple(|source|, c.mss)
  {
    var done := Done(source, s);
    if done > 0 && s.remaining == 0 {
      var size := |s.composed.value.payload|;
      if size == c.mss {
        MultiplePlus(done - size, c.mss);
      } else {
        NotMultiplePlus(done - size, size, c.mss);
      }
    }
  }

  /** So, as written, no segment of a file that is a multiple of MSS carries the flag. */
  lemma {:induction false} AsWrittenNeverFlagsMultiple(c: Config, source: seq<byte>, s: Sender, rounds: seq<Round>)
    requires Inv(AsWritten, c, source, s) && Multiple(|source|, c.mss)
    ensures forall i :: 0 <= i < |Run(AsWritten, c, source, s, rounds).sent| ==>
              Run(AsWritten, c, source, s, rounds).sent[i].eof == 0
    decreases |rounds|
  {
    if |rounds| > 0 && Continues(AsWritten, s) {
      var st, rest, t := RunStep(AsWritten, c, source, s, rounds);
      IterateKeepsInv(AsWritten, c, source, s, rounds[0]);
      AsWrittenNeverFlagsMultiple(c, source, st.next, rounds[1..]);
      var first := if rounds[0].dropped then [] else [st.next.composed.value];
      assert forall g :: g in first ==> g.eof == 0 by {
        if !rounds[0].dropped {
          AsWrittenEof(c, source, st.next);
          assert st.next.composed.value.eof == st.next.eof;
        }
      }
      AllUnflagged(first, rest.sent);
    }
  }

  lemma AllUnflagged(a: seq<Segment>, b: seq<Segment>)
    requires forall g :: g in a ==> g.eof == 0
    requires forall i :: 0 <= i < |b| ==> b[i].eof == 0
    ensures forall i :: 0 <= i < |a + b| ==> (a + b)[i].eof == 0
  {
    forall i | 0 <= i < |a + b|
      ensures (a + b)[i].eof == 0
    {
      if i < |a| {
        assert (a + b)[i] in a;
      } else {
        assert (a + b)[i] == b[i - |a|];
      }
    }
  }

  /** Corrected, the flag is set exactly on the final piece, whatever its size. */
  lemma FixedEof(c: Config, source: seq<byte>, s: Sender)
    requires Inv(Fixed, c, source, s)
    ensures s.eof == 1 <==> s.remaining == 0 && |source| > 0
  {
  }

  // ------------------------------------------------------------ the final segment

  /** Nothing arrives for a datagram the simulated loss dropped. */
  predicate Honest(rounds: seq<Round>) {
    forall i :: 0 <= i < |rounds| && rounds[i].dropped ==> rounds[i].replies == []
  }

  /**
   * As written, a dropped final segment is never resent: the loop exits
   * with the retransmission flag still set, whatever rounds would follow.
   */
  lemma AsWrittenAbandonsFinalSegment(more: seq<Round>)
    ensures var c := Config(1, 2, 20);
            var t := Run(AsWritten, c, [65], Start([65]), [Round(true, [])] + more);
            Honest([Round(true, [])]) && Finished(AsWritten, t) && t.last.retrans && t.sent == []
  {
    var c := Config(1, 2, 20);
    var src: seq<byte> := [65];
    StartInv(AsWritten, c, src);
    var rounds := [Round(true, [])] + more;
    var st := Iterate(AsWritten, c, src, Start(src), rounds[0]);
    assert st.next.remaining == 0;
  }

  /**
   * Corrected, an exit means the final segment, flagged, went out and was
   * acknowledged: the last transmission is the segment the loop ends with.
   */
  lemma {:induction false} FixedEndsAcknowledged(c: Config, source: seq<byte>, s: Sender, rounds: seq<Round>)
    requires WellFormed(c, source, s) && Continues(Fixed, s) && Honest(rounds)
    requires Finished(Fixed, Run(Fixed, c, source, s, rounds))
    ensures EndsWithLastSent(Run(Fixed, c, source, s, rounds))
    decreases |rounds|
  {
    var st, rest, t := RunStep(Fixed, c, source, s, rounds);
    HonestTail(rounds);
    var head := if rounds[0].dropped then [] else [st.next.composed.value];
    if Continues(Fixed, st.next) {
      FixedEndsAcknowledged(c, source, st.next, rounds[1..]);
      EndsAfter(t, rest, head);
    } else {
      FinalRound(c, source, s, rounds[0]);
      assert t.sent == head + [];
    }
  }

  /** The loop ended holding the segment it transmitted last. */
  predicate EndsWithLastSent(t: Transfer) {
    |t.sent| > 0 && t.last.composed == Some(t.sent[|t.sent| - 1])
  }

  lemma EndsAfter(t: Transfer, rest: Transfer, head: seq<Segment>)
    requires EndsWithLastSent(rest) && t.last == rest.last && t.sent == head + rest.sent
    ensures EndsWithLastSent(t)
  {
    assert t.sent[|t.sent| - 1] == rest.sent[|rest.sent| - 1];
  }

  lemma HonestTail(rounds: seq<Round>)
    requires |rounds| > 0 && Honest(rounds)
    ensures Honest(rounds[1..])
  {
    forall i | 0 <= i < |rounds| - 1 && rounds[1..][i].dropped
      ensures rounds[1..][i].replies == []
    {
      assert rounds[1..][i] == rounds[i + 1];
    }
  }

  /** Corrected, the loop leaves only after an acknowledged round, so the last round's segment arrived. */
  lemma FinalRound(c: Config, source: seq<byte>, s: Sender, r: Round)
    requires WellFormed(c, source, s) && Continues(Fixed, s) && (r.dropped ==> r.replies == [])
    requires !Continues(Fixed, Iterate(Fixed, c, source, s, r).next)
    ensures !r.dropped
  {
    assert AwaitAck(s.ackBuf, r.replies).acked;
  }

  /** From the start, the corrected loop exits only once the flagged final piece has gone out. */
  lemma FixedDeliversFinalSegment(c: Config, source: seq<byte>, rounds: seq<Round>)
    requires ValidConfig(c) && |source| > 0 && Honest(rounds)
    requires Finished(Fixed, Run(Fixed, c, source, Start(source), rounds))
    ensures var t := Run(Fixed, c, source, Start(source), rounds);
            && |t.sent| > 0
            && t.sent[|t.sent| - 1].eof == 1
            && t.sent[|t.sent| - 1].payload == Pieces(source, 0, c.mss)[|Pieces(source, 0, c.mss)| - 1]
  {
    StartInv(Fixed, c, source);
    FixedEndsAcknowledged(c, source, Start(source), rounds);
    FinishedSendsWholeFile(Fixed, c, source, rounds);
    var t := Run(Fixed, c, source, Start(source), rounds);
    RunKeepsInv(Fixed, c, source, Start(source), rounds);
    FixedEof(c, source, t.last);
    LastPiece(Fixed, c, source, Start(source), rounds);
    assert Pieces(source, 0, c.mss) != [];
  }

  /**
   * Why the two lemmas above assume `Honest` rounds: the wait ends on any
   * datagram whose first token is "ACK", whatever cursor it carries. In
   * either build, an acknowledgement that arrives while a dropped segment
   * waits (here "ACK 1 0", a late duplicate) is taken for that segment's,
   * so the segment is never transmitted: of a three-byte file at MSS 2 only
   * the last byte goes out, and the loop exits.
   */
  lemma StrayAckSkipsSegment(b: Build, more: seq<Round>)
    ensures var c := Config(1, 2, 20);
            var src: seq<byte> := [65, 66, 67];
            var ack: seq<byte> := [65, 67, 75, 32, 49, 32, 48];
            var rounds := [Round(true, [ack]), Round(false, [ack])] + more;
            var t := Run(b, c, src, Start(src), rounds);
            && !Honest(rounds)
            && Finished(b, t)
            && t.pieces == [[65, 66], [67]]
            && t.sent == [Segment(3, 1, [67])]
  {
    var c := Config(1, 2, 20);
    var src: seq<byte> := [65, 66, 67];
    var ack: seq<byte> := [65, 67, 75, 32, 49, 32, 48];
    var rounds := [Round(true, [ack]), Round(false, [ack])] + more;
    assert !Honest(rounds) by {
      assert rounds[0].dropped && rounds[0].replies != [];
    }
    var s0 := Start(src);
    assert StartsAck(ack) by {
      assert ack[..4] == [65, 67, 75, 32];
    }
    AckRecognised(s0.ackBuf, ack);
    var st1, rest1, t1 := RunStep(b, c, src, s0, rounds);
    assert st1.next.remaining == 1 && !st1.next.retrans && st1.next.cursor == 2;
    assert src[0..2] == [65, 66];
    assert st1.next.composed.value.payload == [65, 66];
    AckRecognised(st1.next.ackBuf, ack);
    assert rounds[1..][0] == Round(false, [ack]);
    var st2, rest2, t2 := RunStep(b, c, src, st1.next, rounds[1..]);
    var s2 := Compose(b, c, src, st1.next);
    assert Wrap32(2 + 1) == 3;
    assert EndsFile(b, 1, 2);
    assert src[2..3] == [67];
    assert s2.composed == Some(Segment(3, 1, [67]));
    assert st2.next.remaining == 0 && !st2.next.retrans;
    assert rest2 == Transfer(st2.next, [], []);
    assert t2.pieces == [[67]] + [];
    assert t1.pieces == [[65, 66]] + t2.pieces;
  }

  // ------------------------------------------------------------ a lossless transfer

  /** An iteration whose datagram is not dropped and whose first reply is an acknowledgement. */
  predicate Prompt(rd: Round) {
    !rd.dropped && |rd.replies| > 0 && StartsAck(rd.replies[0])
  }

  /**
   * What a lossless run transmitted: the fresh pieces in order, each once,
   * each with an `int` cursor and a 0/1 flag, and no segment but the last
   * flagged as the end of the file.
   */
  predicate OnceEach(t: Transfer) {
    && |t.sent| == |t.pieces|
    && (forall i :: 0 <= i < |t.sent| ==>
          t.sent[i].payload == t.pieces[i] && IsInt32(t.sent[i].cursor) && 0 <= t.sent[i].eof <= 1)
    && (forall i :: 0 <= i < |t.sent| - 1 ==> t.sent[i].eof == 0)
  }

  lemma OnceEachCons(g: Segment, rest: Transfer, t: Transfer)
    requires OnceEach(rest) && IsInt32(g.cursor) && 0 <= g.eof <= 1 && (|rest.sent| > 0 ==> g.eof == 0)
    requires t.sent == [g] + rest.sent && t.pieces == [g.payload] + rest.pieces
    ensures OnceEach(t)
  {
    forall i | 1 <= i < |t.sent|
      ensures t.sent[i] == rest.sent[i - 1] && t.pieces[i] == rest.pieces[i - 1]
    {
    }
  }

  /**
   * A prompt iteration sends a freshly composed segment and is acknowledged,
   * so the flag stays clear; the segment is flagged only when the loop is
   * about to exit.
   */
  lemma PromptStep(c: Config, source: seq<byte>, s: Sender, rd: Round)
    requires Inv(Fixed, c, source, s) && !s.retrans && Continues(Fixed, s) && Prompt(rd)
    ensures var st := Iterate(Fixed, c, source, s, rd);
            && Inv(Fixed, c, source, st.next) && !st.next.retrans
            && st.sent == st.next.composed
            && IsInt32(st.next.composed.value.cursor) && 0 <= st.next.composed.value.eof <= 1
            && (Continues(Fixed, st.next) ==> st.next.composed.value.eof == 0)
  {
    AckRecognised(s.ackBuf, rd.replies[0]);
    assert AwaitAck(s.ackBuf, rd.replies).acked;
    IterateKeepsInv(Fixed, c, source, s, rd);
    var next := Iterate(Fixed, c, source, s, rd).next;
    FixedEof(c, source, next);
  }

  /** Without loss, every segment goes out exactly once, and the flag is never set. */
  lemma {:induction false} LosslessSendsEachPieceOnce(c: Config, source: seq<byte>, s: Sender, rounds: seq<Round>)
    requires Inv(Fixed, c, source, s) && !s.retrans
    requires forall i :: 0 <= i < |rounds| ==> Prompt(rounds[i])
    ensures !Run(Fixed, c, source, s, rounds).last.retrans
    ensures OnceEach(Run(Fixed, c, source, s, rounds))
    decreases |rounds|
  {
    if |rounds| > 0 && Continues(Fixed, s) {
      var st, rest, t := RunStep(Fixed, c, source, s, rounds);
      PromptStep(c, source, s, rounds[0]);
      assert forall i :: 0 <= i < |rounds[1..]| ==> Prompt(rounds[1..][i]) by {
        forall i | 0 <= i < |rounds[1..]|
          ensures Prompt(rounds[1..][i])
        {
          assert rounds[1..][i] == rounds[i + 1];
        }
      }
      LosslessSendsEachPieceOnce(c, source, st.next, rounds[1..]);
      OnceEachCons(st.next.composed.value, rest, t);
    }
  }
}

=== FILE: java_lang.dfy ===
/**
 * The small part of the Java runtime the peer's wire formats rest on:
 * 32-bit `int` wrap-around, `String.trim`, `String.split(" ")`,
 * `Integer.toString`, `Integer.parseInt`, `BufferedReader.readLine`,
 * byte/char conversion and the zero-filled byte buffers the code copies
 * headers and datagrams into.
 */
module JavaLang {

  newtype byte = x: int | 0 <= x < 256

  datatype Option<T> = None | Some(value: T)

  datatype Result<T, E> = Ok(value: T) | Err(error: E)

  /** The unchecked exceptions the peer's code can raise. */
  datatype JavaError = NumberFormat | IndexOutOfBounds | NegativeArraySize

  // ---------------------------------------------------------------- int

  const INT_MIN: int := -0x8000_0000
  const INT_MAX: int := 0x7FFF_FFFF
  const TWO_32: int := 0x1_0000_0000

  predicate IsInt32(n: int) {
    INT_MIN <= n <= INT_MAX
  }

  /** Two's-complement wrap-around of a Java `int` result. */
  function Wrap32(n: int): (r: int)
    ensures IsInt32(r)
    ensures IsInt32(n) ==> r == n
    ensures (r - n) % TWO_32 == 0
  {
    if IsInt32(n) then n
    else
      var m := (n - INT_MIN) % TWO_32;
      assert n - INT_MIN == TWO_32 * ((n - INT_MIN) / TWO_32) + m;
      m + INT_MIN
  }

  function Min(a: int, b: int): (m: int)
    ensures m <= a && m <= b && (m == a || m == b)
  {
    if a < b then a else b
  }

  // ---------------------------------------------------------------- bytes

  function Zeros(n: nat): (z: seq<byte>)
    ensures |z| == n && forall i :: 0 <= i < n ==> z[i] == 0
  {
    seq(n, _ => 0)
  }

  /**
   * The first `n` bytes of a fresh (zero-filled) buffer of length `n` after
   * copying `b` into it: truncated when longer, zero-filled when shorter.
   */
  function Fit(b: seq<byte>, n: nat): (r: seq<byte>)
    ensures |r| == n
    ensures forall i :: 0 <= i < n ==> r[i] == if i < |b| then b[i] else 0
  {
    if |b| >= n then b[..n] else b + Zeros(n - |b|)
  }

  lemma FitShort(b: seq<byte>, n: nat)
    requires |b| <= n
    ensures Fit(b, n) == b + Zeros(n - |b|)
  {
  }

  /** A datagram that fits its buffer is found, unchanged, at the buffer's start. */
  lemma FitPrefix(d: seq<byte>, n: nat, k: nat)
    requires k <= |d| <= n
    ensures Fit(d, n)[..k] == d[..k]
    ensures Fit(d, n)[k..|d|] == d[k..]
  {
    FitShort(d, n);
    ConcatSlices(d, Zeros(n - |d|), k);
  }

  lemma ConcatSlices<T>(a: seq<T>, b: seq<T>, k: nat)
    requires k <= |a|
    ensures (a + b)[..k] == a[..k]
    ensures (a + b)[k..|a|] == a[k..]
  {
  }

  /** `new String(bytes)`, with each byte read as the character of the same code. */
  function Decode(b: seq<byte>): (s: string)
    ensures |s| == |b|
    ensures forall i :: 0 <= i < |b| ==> s[i] as int == b[i] as int
  {
    seq(|b|, i requires 0 <= i < |b| => (b[i] as int) as char)
  }

  predicate IsLatin1(s: string) {
    forall i :: 0 <= i < |s| ==> s[i] as int < 256
  }

  /** `String.getBytes()` for text whose characters all fit in one byte. */
  function Encode(s: string): (b: seq<byte>)
    requires IsLatin1(s)
    ensures |b| == |s|
    ensures Decode(b) == s
  {
    seq(|s|, i requires 0 <= i < |s| => s[i] as int as byte)
  }

  lemma Latin1Concat(a: string, b: string)
    requires IsLatin1(a) && IsLatin1(b)
    ensures IsLatin1(a + b)
  {
    assert forall i :: 0 <= i < |a + b| ==> (a + b)[i] == if i < |a| then a[i] else b[i - |a|];
  }

  lemma EncodeConcat(a: string, b: string)
    requires IsLatin1(a) && IsLatin1(b)
    ensures IsLatin1(a + b)
    ensures Encode(a + b) == Encode(a) + Encode(b)
  {
    assert forall i :: 0 <= i < |a + b| ==> (a + b)[i] == if i < |a| then a[i] else b[i - |a|];
  }

  lemma DecodeConcat(a: seq<byte>, b: seq<byte>)
    ensures Decode(a + b) == Decode(a) + Decode(b)
  {
  }

  // ---------------------------------------------------------------- trim

  /** The characters `String.trim` removes: code point at most U+0020. */
  predicate IsWhite(c: char) {
    c as int <= 0x20
  }

  predicate AllWhite(s: string) {
    forall i :: 0 <= i < |s| ==> IsWhite(s[i])
  }

  predicate Trimmed(s: string) {
    |s| == 0 || (!IsWhite(s[0]) && !IsWhite(s[|s| - 1]))
  }

  function TrimStart(s: string): (r: string)
    ensures |r| <= |s|
    ensures |r| == 0 || !IsWhite(r[0])
    ensures forall i :: 0 <= i < |s| - |r| ==> IsWhite(s[i])
  {
    if |s| > 0 && IsWhite(s[0]) then TrimStart(s[1..]) else s
  }

  /** What `TrimStart` keeps is a suffix of its argument. */
  lemma {:induction false} TrimStartSuffix(s: string)
    ensures TrimStart(s) == s[|s| - |TrimStart(s)|..]
    decreases |s|
  {
    if |s| > 0 && IsWhite(s[0]) {
      TrimStartSuffix(s[1..]);
    }
  }

  function TrimEnd(s: string): (r: string)
    ensures |r| <= |s| && r == s[..|r|]
    ensures |r| == 0 || !IsWhite(r[|r| - 1])
    ensures forall i :: |r| <= i < |s| ==> IsWhite(s[i])
  {
    if |s| > 0 && IsWhite(s[|s| - 1]) then TrimEnd(s[..|s| - 1]) else s
  }

  /** `String.trim()`: the text between the leading and the trailing white run. */
  function Trim(s: string): (r: string)
    ensures Trimmed(r)
    ensures |r| <= |s|
  {
    TrimEnd(TrimStart(s))
  }

  lemma {:induction false} TrimStartWhite(pre: string, s: string)
    requires AllWhite(pre)
    requires |s| == 0 || !IsWhite(s[0])
    ensures TrimStart(pre + s) == s
    decreases |pre|
  {
    if |pre| > 0 {
      assert (pre + s)[1..] == pre[1..] + s;
      TrimStartWhite(pre[1..], s);
    } else {
      assert pre + s == s;
    }
  }

  lemma {:induction false} TrimEndWhite(s: string, post: string)
    requires AllWhite(post)
    requires |s| == 0 || !IsWhite(s[|s| - 1])
    ensures TrimEnd(s + post) == s
    decreases |post|
  {
    if |post| > 0 {
      var p := post[..|post| - 1];
      assert (s + post)[..|s + post| - 1] == s + p;
      TrimEndWhite(s, p);
    } else {
      assert s + post == s;
    }
  }

  /** Text that is already trimmed survives white padding on both sides. */
  lemma TrimPadded(pre: string, s: string, post: string)
    requires AllWhite(pre) && AllWhite(post) && Trimmed(s)
    ensures Trim(pre + s + post) == s
  {
    if |s| == 0 {
      assert pre + s + post == pre + post;
      assert AllWhite(pre + post);
      TrimStartWhite(pre + post, "");
      assert pre + post + "" == pre + post;
    } else {
      assert pre + s + post == pre + (s + post);
      TrimStartWhite(pre, s + post);
      TrimEndWhite(s, post);
    }
  }

  lemma {:induction false} TrimEndPadded(t: string, post: string)
    requires AllWhite(post)
    ensures TrimEnd(t + post) == TrimEnd(t)
    decreases |post|
  {
    if |post| > 0 {
      var p := post[..|post| - 1];
      assert (t + post)[..|t + post| - 1] == t + p;
      TrimEndPadded(t, p);
    } else {
      assert t + post == t;
    }
  }

  lemma {:induction false} TrimStartPadded(s: string, post: string)
    requires AllWhite(post) && !AllWhite(s)
    ensures TrimStart(s + post) == TrimStart(s) + post
    decreases |s|
  {
    if IsWhite(s[0]) {
      assert (s + post)[1..] == s[1..] + post;
      assert !AllWhite(s[1..]) by {
        var i :| 0 <= i < |s| && !IsWhite(s[i]);
        assert s[1..][i - 1] == s[i];
      }
      TrimStartPadded(s[1..], post);
    }
  }

  /** A zero-filled buffer reads as white space. */
  lemma ZerosWhite(n: nat)
    ensures AllWhite(Decode(Zeros(n)))
  {
  }

  /**
   * Text copied into a zero-filled buffer that holds it reads back as the
   * text followed by NUL characters, which neither end a line nor survive
   * trimming.
   */
  lemma BufferedText(t: string, n: nat) returns (z: string)
    requires IsLatin1(t) && |t| <= n
    ensures Decode(Fit(Encode(t), n)) == t + z
    ensures AllWhite(z) && '\n' !in z && '\r' !in z
    ensures Tokens(Decode(Fit(Encode(t), n))) == Tokens(t)
  {
    var pad := Zeros(n - |t|);
    z := Decode(pad);
    assert Decode(Fit(Encode(t), n)) == t + z by {
      FitShort(Encode(t), n);
      DecodeConcat(Encode(t), pad);
    }
    ZerosNul(n - |t|);
    TokensPadded(t, z);
  }

  /** Zero bytes read back as NUL characters: white, and no line break. */
  lemma ZerosNul(k: nat)
    ensures AllWhite(Decode(Zeros(k))) && '\n' !in Decode(Zeros(k)) && '\r' !in Decode(Zeros(k))
  {
    var z := Decode(Zeros(k));
    ZerosWhite(k);
    assert forall i :: 0 <= i < |z| ==> z[i] == 0 as char;
  }

  /**
   * A message that starts with a word followed by a space (or nothing) has
   * that word as its first token, whatever comes after.
   */
  lemma FirstToken(w: string, rest: string)
    requires IsWord(w)
    requires rest == "" || rest[0] == ' '
    ensures Tokens(w + rest)[0] == w
  {
    var t := TrimWordStart(w, rest);
    SplitAtWord(t, w);
  }

  /** Trimming keeps a leading word and whatever follows it up to the trailing white run. */
  lemma TrimWordStart(w: string, rest: string) returns (t: string)
    requires |w| > 0 && Trimmed(w)
    ensures t == Trim(w + rest)
    ensures |t| >= |w| && t[..|w|] == w
    ensures |t| > |w| ==> t[|w|] == (w + rest)[|w|]
  {
    var s := w + rest;
    assert s[0] == w[0];
    assert TrimStart(s) == s;
    t := TrimEnd(s);
    assert !IsWhite(s[|w| - 1]);
    assert |t| >= |w|;
    PrefixOfPrefix(s, |t|, |w|);
    PrefixOfConcat(w, rest);
  }

  lemma PrefixOfConcat<T>(a: seq<T>, b: seq<T>)
    ensures (a + b)[..|a|] == a
  {
  }

  lemma PrefixOfPrefix<T>(a: seq<T>, n: nat, m: nat)
    requires m <= n <= |a|
    ensures a[..n][..m] == a[..m]
  {
  }

  lemma SplitAtWord(t: string, w: string)
    requires IsWord(w) && |t| >= |w| && t[..|w|] == w
    requires |t| == |w| || t[|w|] == ' '
    ensures Split(t)[0] == w
  {
    var r0 := Split(t)[0];
    assert forall i :: 0 <= i < |w| ==> t[i] == w[i] && w[i] in w;
    assert forall i :: 0 <= i < |r0| ==> t[i] == r0[i] && r0[i] in r0;
  }

  /** White padding after a message, such as a buffer's zero fill, does not change its tokens. */
  lemma TokensPadded(s: string, post: string)
    requires AllWhite(post)
    ensures Tokens(s + post) == Tokens(s)
  {
    if AllWhite(s) {
      assert AllWhite(s + post);
      TrimStartWhite(s + post, "");
      TrimStartWhite(s, "");
      assert s + post + "" == s + post && s + "" == s;
    } else {
      TrimStartPadded(s, post);
      TrimEndPadded(TrimStart(s), post);
    }
  }

  lemma TrimTrimmed(s: string)
    requires Trimmed(s)
    ensures Trim(s) == s
  {
    TrimPadded("", s, "");
    assert "" + s + "" == s;
  }

  // ---------------------------------------------------------------- split

  /**
   * Splitting at every single space, keeping empty pieces; `Join` puts the
   * pieces back together.
   */
  function Split(s: string): (r: seq<string>)
    ensures |r| > 0
    ensures forall i :: 0 <= i < |r| ==> ' ' !in r[i]
    ensures r[0] <= s && (|r[0]| == |s| || s[|r[0]|] == ' ')
    ensures Join(r) == s
  {
    if |s| == 0 then [""]
    else
      var rest := Split(s[1..]);
      if s[0] == ' ' then
        assert ([""] + rest)[1..] == rest;
        [""] + rest
      else
        var r := [[s[0]] + rest[0]] + rest[1..];
        assert |rest| > 1 ==> Join(rest) == rest[0] + " " + Join(rest[1..]);
        assert |rest| > 1 ==> r[1..] == rest[1..];
        r
  }

  function Join(ts: seq<string>): string
    requires |ts| > 0
  {
    if |ts| == 1 then ts[0] else ts[0] + " " + Join(ts[1..])
  }

  lemma Join3(a: string, b: string, c: string)
    ensures Join([a, b, c]) == a + " " + b + " " + c
  {
    assert [b, c][1..] == [c];
    assert Join([b, c]) == b + " " + c;
    assert [a, b, c][1..] == [b, c];
  }

  lemma Join4(a: string, b: string, c: string, d: string)
    ensures Join([a, b, c, d]) == a + " " + b + " " + c + " " + d
  {
    assert Join([d]) == d;
    assert [c, d][1..] == [d];
    assert Join([c, d]) == c + " " + d;
    assert [b, c, d][1..] == [c, d];
    assert Join([b, c, d]) == b + " " + (c + " " + d);
    assert [a, b, c, d][1..] == [b, c, d];
  }

  /** A printable token: non-empty, single-byte, no space, no line break. */
  predicate IsWord(t: string) {
    |t| > 0 && Trimmed(t) && IsLatin1(t) && ' ' !in t && '\n' !in t && '\r' !in t
  }

  /** A message made of words joined by single spaces is a trimmed, single-byte line. */
  lemma {:induction false} JoinWords(ts: seq<string>)
    requires |ts| > 0
    requires forall i :: 0 <= i < |ts| ==> IsWord(ts[i])
    ensures Trimmed(Join(ts)) && IsLatin1(Join(ts))
    ensures '\n' !in Join(ts) && '\r' !in Join(ts)
    ensures |Join(ts)| > 0 && Join(ts)[0] == ts[0][0]
    decreases |ts|
  {
    if |ts| > 1 {
      JoinWords(ts[1..]);
      var j := Join(ts[1..]);
      var m := ts[0] + " " + j;
      assert m[|m| - 1] == j[|j| - 1];
      assert forall i :: 0 <= i < |m| ==> m[i] == if i < |ts[0]| then ts[0][i] else if i == |ts[0]| then ' ' else j[i - |ts[0]| - 1];
    }
  }

  /** Tokenising a message of words, however padded with white, gives back the words. */
  lemma TokensOfWords(pre: string, ts: seq<string>, post: string)
    requires |ts| > 0
    requires forall i :: 0 <= i < |ts| ==> IsWord(ts[i])
    requires AllWhite(pre) && AllWhite(post)
    ensures Tokens(pre + Join(ts) + post) == ts
  {
    JoinWords(ts);
    TokensOfJoin(pre, ts, post);
  }

  lemma {:induction false} SplitNoSpace(t: string)
    requires ' ' !in t
    ensures Split(t) == [t]
    decreases |t|
  {
    if |t| > 0 {
      assert ' ' !in t[1..] by {
        forall i | 0 <= i < |t[1..]| ensures t[1..][i] != ' ' {
          assert t[1..][i] == t[i + 1];
        }
      }
      SplitNoSpace(t[1..]);
      assert [t[0]] + t[1..] == t;
    }
  }

  lemma {:induction false} SplitFirst(t: string, rest: string)
    requires ' ' !in t
    ensures Split(t + " " + rest) == [t] + Split(rest)
    decreases |t|
  {
    if |t| == 0 {
      assert (t + " " + rest)[1..] == rest;
    } else {
      assert ' ' !in t[1..] by {
        forall i | 0 <= i < |t[1..]| ensures t[1..][i] != ' ' {
          assert t[1..][i] == t[i + 1];
        }
      }
      assert (t + " " + rest)[1..] == t[1..] + " " + rest;
      SplitFirst(t[1..], rest);
      assert [t[0]] + t[1..] == t;
    }
  }

  /** Splitting undoes joining, as long as no piece contains a space. */
  lemma {:induction false} SplitJoin(ts: seq<string>)
    requires |ts| > 0
    requires forall i :: 0 <= i < |ts| ==> ' ' !in ts[i]
    ensures Split(Join(ts)) == ts
    decreases |ts|
  {
    if |ts| == 1 {
      SplitNoSpace(ts[0]);
    } else {
      SplitFirst(ts[0], Join(ts[1..]));
      SplitJoin(ts[1..]);
      assert [ts[0]] + ts[1..] == ts;
    }
  }

  function DropTrailingEmpty(ts: seq<string>): (r: seq<string>)
    ensures r <= ts
    ensures |r| == 0 || r[|r| - 1] != ""
    ensures forall i :: |r| <= i < |ts| ==> ts[i] == ""
  {
    if |ts| > 0 && ts[|ts| - 1] == "" then DropTrailingEmpty(ts[..|ts| - 1]) else ts
  }

  /**
   * `String.split(" ")`: the whole string when it holds no space, otherwise
   * the pieces with trailing empty pieces removed.
   */
  function JavaSplit(s: string): seq<string> {
    if ' ' !in s then [s] else DropTrailingEmpty(Split(s))
  }

  lemma {:induction false} LastPieceNonEmpty(s: string)
    requires |s| > 0 && s[|s| - 1] != ' '
    ensures Split(s)[|Split(s)| - 1] != ""
    decreases |s|
  {
    if |s| > 1 {
      LastPieceNonEmpty(s[1..]);
    }
  }

  /**
   * The tokens of a message as the source computes them:
   * `message.trim().split(" ")`.
   */
  function Tokens(s: string): (r: seq<string>)
    ensures |r| > 0
  {
    Split(Trim(s))
  }

  /** `Tokens` is exactly what `trim().split(" ")` returns. */
  lemma TokensAreJavaSplit(s: string)
    ensures Tokens(s) == JavaSplit(Trim(s))
  {
    JavaSplitTrimmed(Trim(s));
  }

  /** On trimmed text `String.split(" ")` drops nothing. */
  lemma JavaSplitTrimmed(t: string)
    requires Trimmed(t)
    ensures JavaSplit(t) == Split(t)
  {
    if ' ' !in t {
      SplitNoSpace(t);
    } else {
      LastPieceNonEmpty(t);
    }
  }

  /** Tokenising a joined, padded message gives back its pieces. */
  lemma TokensOfJoin(pre: string, ts: seq<string>, post: string)
    requires |ts| > 0
    requires forall i :: 0 <= i < |ts| ==> ' ' !in ts[i]
    requires Trimmed(Join(ts))
    requires AllWhite(pre) && AllWhite(post)
    ensures Tokens(pre + Join(ts) + post) == ts
  {
    TrimPadded(pre, Join(ts), post);
    SplitJoin(ts);
  }

  /**
   * A text that trimming leaves alone is determined by its tokens: it is
   * exactly the tokens joined by single spaces.
   */
  lemma TrimmedIsJoinOfTokens(m: string)
    requires Trim(m) == m
    ensures m == Join(Tokens(m))
  {
  }

  // ---------------------------------------------------------------- numbers

  predicate IsDigit(c: char) {
    '0' <= c <= '9'
  }

  predicate AllDigits(s: string) {
    forall i :: 0 <= i < |s| ==> IsDigit(s[i])
  }

  function DigitChar(d: nat): (c: char)
    requires d < 10
    ensures IsDigit(c) && c as int - '0' as int == d
  {
    ('0' as int + d) as char
  }

  function Digits(n: nat): (s: string)
    ensures |s| > 0 && AllDigits(s)
  {
    if n < 10 then [DigitChar(n)] else Digits(n / 10) + [DigitChar(n % 10)]
  }

  function DigitsValue(s: string): nat
    requires AllDigits(s)
  {
    if |s| == 0 then 0
    else DigitsValue(s[..|s| - 1]) * 10 + (s[|s| - 1] as int - '0' as int)
  }

  lemma {:induction false} DigitsValueOfDigits(n: nat)
    ensures DigitsValue(Digits(n)) == n
  {
    if n >= 10 {
      var s := Digits(n);
      assert s[..|s| - 1] == Digits(n / 10);
      DigitsValueOfDigits(n / 10);
    }
  }

  /** `Integer.toString(n)`: an optional minus sign and the decimal digits. */
  function IntToString(n: int): (s: string)
    ensures IsWord(s)
    ensures n >= 0 <==> AllDigits(s)
  {
    var d := if n < 0 then Digits(-n) else Digits(n);
    var s := if n < 0 then "-" + d else d;
    assert s[|s| - 1] == d[|d| - 1];
    s
  }

  /** A number below `10^k` has at most `k` digits. */
  lemma {:induction false} DigitsLength(n: nat, k: nat, bound: nat)
    requires k > 0 && bound == Pow10(k) && n < bound
    ensures |Digits(n)| <= k
    decreases k
  {
    if n >= 10 {
      assert k > 1;
      DigitsLength(n / 10, k - 1, Pow10(k - 1));
    }
  }

  function Pow10(k: nat): (p: nat)
    ensures p > 0
  {
    if k == 0 then 1 else 10 * Pow10(k - 1)
  }

  /** An `int` prints in at most eleven characters: a sign and ten digits. */
  lemma IntToStringLength(n: int)
    requires IsInt32(n)
    ensures |IntToString(n)| <= 11
  {
    assert Pow10(10) == 10000000000;
    if n < 0 {
      DigitsLength(-n, 10, Pow10(10));
    } else {
      DigitsLength(n, 10, Pow10(10));
    }
  }

  /** Text `Integer.parseInt` accepts before the range check. */
  predicate IsNumeral(s: string) {
    var body := if |s| > 0 && (s[0] == '-' || s[0] == '+') then s[1..] else s;
    |body| > 0 && AllDigits(body)
  }

  function NumeralValue(s: string): int
    requires IsNumeral(s)
  {
    if s[0] == '-' then -(DigitsValue(s[1..]) as int)
    else if s[0] == '+' then DigitsValue(s[1..])
    else DigitsValue(s)
  }

  /**
   * `Integer.parseInt(s)`: an optional sign followed by at least one decimal
   * digit, whose value fits in an `int`; anything else raises
   * `NumberFormatException` (here: None).
   */
  function ParseInt(s: string): (r: Option<int>)
    ensures r.Some? <==> IsNumeral(s) && IsInt32(NumeralValue(s))
    ensures r.Some? ==> IsInt32(r.value) && r.value == NumeralValue(s)
  {
    var neg := |s| > 0 && s[0] == '-';
    var body := if |s| > 0 && (s[0] == '-' || s[0] == '+') then s[1..] else s;
    if |body| == 0 || !AllDigits(body) then None
    else
      var v := if neg then -(DigitsValue(body) as int) else DigitsValue(body);
      if IsInt32(v) then Some(v) else None
  }

  /** `Integer.parseInt` reads back what `Integer.toString` wrote. */
  lemma ParseIntToString(n: int)
    requires IsInt32(n)
    ensures ParseInt(IntToString(n)) == Some(n)
  {
    if n < 0 {
      assert IntToString(n) == "-" + Digits(-n);
      ParseNegativeDigits(-n);
    } else {
      assert IntToString(n) == Digits(n);
      ParseDigits(n);
    }
  }

  lemma ParseDigits(n: nat)
    requires n <= INT_MAX
    ensures ParseInt(Digits(n)) == Some(n)
  {
    var d := Digits(n);
    assert IsDigit(d[0]);
    DigitsValueOfDigits(n);
  }

  lemma ParseNegativeDigits(n: nat)
    requires n <= -INT_MIN
    ensures ParseInt("-" + Digits(n)) == Some(-(n as int))
  {
    var d := Digits(n);
    var s := "-" + d;
    assert s[0] == '-' && s[1..] == d;
    DigitsValueOfDigits(n);
  }

  /**
   * The `count` integers at positions `from`.. of a token array, read in the
   * order the source reads them: an index past the end raises
   * `ArrayIndexOutOfBoundsException`, a non-numeral `NumberFormatException`,
   * whichever comes first.
   */
  function IntFields(tokens: seq<string>, from: nat, count: nat): (r: Result<seq<int>, JavaError>)
    requires from <= |tokens|
    ensures r.Ok? <==> (from + count <= |tokens|
                        && forall i :: from <= i < from + count ==> ParseInt(tokens[i]).Some?)
    ensures r.Ok? ==> |r.value| == count
    decreases count
  {
    if count == 0 then Ok([])
    else if from >= |tokens| then Err(IndexOutOfBounds)
    else match ParseInt(tokens[from])
      case None => Err(NumberFormat)
      case Some(v) =>
        match IntFields(tokens, from + 1, count - 1)
        case Err(e) => Err(e)
        case Ok(vs) => Ok([v] + vs)
  }

  /**
   * The values are the tokens' values, in order; an index error means the
   * tokens ran out, and a format error means a token that is there does
   * not parse (the earlier one wins, as Java evaluates left to right).
   */
  lemma {:induction false} IntFieldsSpec(tokens: seq<string>, from: nat, count: nat)
    requires from <= |tokens|
    ensures var r := IntFields(tokens, from, count);
            && (r.Ok? ==> forall i :: 0 <= i < count ==> ParseInt(tokens[from + i]) == Some(r.value[i]))
            && (r == Err(IndexOutOfBounds) ==> from + count > |tokens|)
            && (r == Err(NumberFormat) ==>
                  exists i :: from <= i < from + count && i < |tokens| && ParseInt(tokens[i]).None?)
    decreases count
  {
    if count > 0 && from < |tokens| && ParseInt(tokens[from]).Some? {
      IntFieldsSpec(tokens, from + 1, count - 1);
      var r := IntFields(tokens, from, count);
      var rest := IntFields(tokens, from + 1, count - 1);
      if rest.Ok? {
        var v := ParseInt(tokens[from]).value;
        assert r.value == [v] + rest.value;
        assert forall i :: 0 < i < count ==> r.value[i] == rest.value[i - 1];
      }
    }
  }

  /** Two integers after a leading word read back as themselves. */
  lemma IntFields2(tag: string, a: int, b: int)
    requires IsInt32(a) && IsInt32(b)
    ensures IntFields([tag, IntToString(a), IntToString(b)], 1, 2) == Ok([a, b])
  {
    ParseIntToString(a);
    ParseIntToString(b);
    ParsedFields2([tag, IntToString(a), IntToString(b)], a, b);
  }

  /** Three integers after a leading word read back as themselves. */
  lemma IntFields3(tag: string, a: int, b: int, c: int)
    requires IsInt32(a) && IsInt32(b) && IsInt32(c)
    ensures IntFields([tag, IntToString(a), IntToString(b), IntToString(c)], 1, 3) == Ok([a, b, c])
  {
    ParseIntToString(a);
    ParseIntToString(b);
    ParseIntToString(c);
    ParsedFields3([tag, IntToString(a), IntToString(b), IntToString(c)], a, b, c);
  }

  lemma ParsedFields2(ts: seq<string>, a: int, b: int)
    requires |ts| == 3 && ParseInt(ts[1]) == Some(a) && ParseInt(ts[2]) == Some(b)
    ensures IntFields(ts, 1, 2) == Ok([a, b])
  {
    assert IntFields(ts, 3, 0) == Ok([]);
    FieldsStep(ts, 2, 1, b, []);
    assert [b] + [] == [b];
    FieldsStep(ts, 1, 2, a, [b]);
    assert [a] + [b] == [a, b];
  }

  lemma ParsedFields3(ts: seq<string>, a: int, b: int, c: int)
    requires |ts| == 4 && ParseInt(ts[1]) == Some(a) && ParseInt(ts[2]) == Some(b) && ParseInt(ts[3]) == Some(c)
    ensures IntFields(ts, 1, 3) == Ok([a, b, c])
  {
    assert IntFields(ts, 4, 0) == Ok([]);
    FieldsStep(ts, 3, 1, c, []);
    assert [c] + [] == [c];
    FieldsStep(ts, 2, 2, b, [c]);
    assert [b] + [c] == [b, c];
    FieldsStep(ts, 1, 3, a, [b, c]);
    assert [a] + [b, c] == [a, b, c];
  }

  /** One field read: a token that parses, followed by the rest. */
  lemma FieldsStep(ts: seq<string>, from: nat, count: nat, v: int, vs: seq<int>)
    requires from < |ts| && count > 0 && ParseInt(ts[from]) == Some(v)
    requires IntFields(ts, from + 1, count - 1) == Ok(vs)
    ensures IntFields(ts, from, count) == Ok([v] + vs)
  {
  }

  // ---------------------------------------------------------------- lines

  function LineOf(s: string): (r: string)
    ensures r <= s && '\n' !in r && '\r' !in r
    ensures |r| == |s| || s[|r|] == '\n' || s[|r|] == '\r'
  {
    if |s| == 0 || s[0] == '\n' || s[0] == '\r' then "" else [s[0]] + LineOf(s[1..])
  }

  /**
   * `BufferedReader.readLine()` on a stream holding `s`: null (None) at the
   * end of the stream, otherwise the text before the first line terminator.
   */
  function ReadLine(s: string): (r: Option<string>)
    ensures r.None? <==> |s| == 0
    ensures r.Some? ==> r.value <= s && '\n' !in r.value && '\r' !in r.value
    ensures r.Some? ==> |r.value| == |s| || s[|r.value|] == '\n' || s[|r.value|] == '\r'
  {
    if |s| == 0 then None else Some(LineOf(s))
  }

  lemma {:induction false} LineOfUnterminated(s: string, tail: string)
    requires '\n' !in s && '\r' !in s
    requires tail == "" || tail[0] == '\n' || tail[0] == '\r'
    ensures LineOf(s + tail) == s
    decreases |s|
  {
    if |s| == 0 {
      assert s + tail == tail;
    } else {
      assert (s + tail)[1..] == s[1..] + tail;
      assert s[0] in s;
      LineOfUnterminated(s[1..], tail);
      assert [s[0]] + s[1..] == s;
    }
  }

  lemma ReadLineUnterminated(s: string, tail: string)
    requires |s| > 0 && '\n' !in s && '\r' !in s
    requires tail == "" || tail[0] == '\n' || tail[0] == '\r'
    ensures ReadLine(s + tail) == Some(s)
  {
    LineOfUnterminated(s, tail);
  }
}

=== FILE: ping_sender.dfy ===
/**
 * The failure detector's probing side (`PingSenderUDP`): one loop per
 * monitored successor slot, each iteration pinging the successor currently
 * in that slot and counting consecutive unanswered pings up to `MAX_FAILS`.
 */
module PingSender {
  import opened JavaLang
  import opened Ring

  const MAX_FAILS: nat := 4

  /** `createPingRequest`: "PG <peer> 1" towards the first successor, "PG <peer> 0" otherwise. */
  function CreatePingRequest(peer: int, first: bool): (m: string)
    ensures Tokens(m) == ["PG", IntToString(peer), IntToString(if first then 1 else 0)]
    ensures Trim(m) == m
    ensures IsLatin1(m) && '\n' !in m && '\r' !in m && |m| > 0
  {
    var flag := if first then 1 else 0;
    var ts := ["PG", IntToString(peer), IntToString(flag)];
    var m := "PG" + " " + IntToString(peer) + " " + IntToString(flag);
    assert [ts[1], ts[2]][1..] == [ts[2]];
    assert ts[1..] == [ts[1], ts[2]];
    assert Join([ts[1], ts[2]]) == ts[1] + " " + ts[2];
    assert Join(ts) == m;
    JoinWords(ts);
    TokensOfWords("", ts, "");
    TrimTrimmed(m);
    assert "" + m + "" == m;
    m
  }

  /** Whether a ping got any answer before the socket timeout. */
  datatype Outcome = Responded | TimedOut

  /** One iteration as seen by the loop: the ring state it reads and how the ping went. */
  datatype Observation = Observation(ring: RingState, outcome: Outcome)

  /**
   * What one iteration did: the port its ping went to, the ping's bytes, and
   * whether it called `handleDeadPeer`.
   */
  datatype Probe = Probe(port: int, data: seq<byte>, declaresDead: bool)

  /** The successor the loop reads afresh at the top of every iteration. */
  function Target(r: RingState, first: bool): int {
    if first then r.firstSucc else r.secondSucc
  }

  /**
   * The counter after one ping: an answer resets it, a timeout increments it
   * while it is below `MAX_FAILS` and leaves it there otherwise.
   */
  function NextFails(fails: nat, o: Outcome): (n: nat)
    requires fails <= MAX_FAILS
    ensures n <= MAX_FAILS
    ensures o == Responded ==> n == 0
    ensures o == TimedOut ==> n == Min(fails + 1, MAX_FAILS)
  {
    match o
    case Responded => 0
    case TimedOut => if fails >= MAX_FAILS then fails else fails + 1
  }

  /** `handleDeadPeer` runs on a timeout that finds the counter already at `MAX_FAILS`. */
  predicate DeclaresDead(fails: nat, o: Outcome) {
    o == TimedOut && fails >= MAX_FAILS
  }

  /**
   * One iteration: the ping is built from the id and the loop's slot alone,
   * whatever the ring holds, and goes to the successor read in this iteration.
   */
  function Iterate(peer: int, first: bool, fails: nat, ob: Observation): (p: Probe)
    ensures p.port == GetPort(Target(ob.ring, first))
    ensures Tokens(Decode(p.data)) == ["PG", IntToString(peer), IntToString(if first then 1 else 0)]
    ensures p.declaresDead <==> DeclaresDead(fails, ob.outcome)
  {
    Probe(GetPort(Target(ob.ring, first)), Encode(CreatePingRequest(peer, first)), DeclaresDead(fails, ob.outcome))
  }

  /** The probes of the first `|obs|` iterations of one `sendPing` loop, and the counter after them. */
  datatype Detector = Detector(probes: seq<Probe>, fails: nat)

  function Run(peer: int, first: bool, obs: seq<Observation>): (d: Detector)
    ensures |d.probes| == |obs| && d.fails <= MAX_FAILS
    decreases |obs|
  {
    if |obs| == 0 then Detector([], 0)
    else
      var before := Run(peer, first, obs[..|obs| - 1]);
      var ob := obs[|obs| - 1];
      Detector(before.probes + [Iterate(peer, first, before.fails, ob)], NextFails(before.fails, ob.outcome))
  }

  /** The number of consecutive timeouts that end `obs`. */
  function Streak(obs: seq<Observation>): nat
    decreases |obs|
  {
    if |obs| == 0 || obs[|obs| - 1].outcome == Responded then 0
    else Streak(obs[..|obs| - 1]) + 1
  }

  /** Between answers the counter is the current timeout streak, capped at `MAX_FAILS`. */
  lemma {:induction false} CounterIsCappedStreak(peer: int, first: bool, obs: seq<Observation>)
    ensures Run(peer, first, obs).fails == Min(Streak(obs), MAX_FAILS)
    decreases |obs|
  {
    if |obs| > 0 {
      CounterIsCappedStreak(peer, first, obs[..|obs| - 1]);
    }
  }

  /** Earlier iterations' probes are not revised by later ones. */
  lemma {:induction false} RunPrefix(peer: int, first: bool, obs: seq<Observation>, n: nat)
    requires n <= |obs|
    ensures Run(peer, first, obs[..n]).probes == Run(peer, first, obs).probes[..n]
    decreases |obs|
  {
    if n < |obs| {
      var init := obs[..|obs| - 1];
      assert init[..n] == obs[..n];
      RunPrefix(peer, first, init, n);
      var before := Run(peer, first, init);
      var x := Iterate(peer, first, before.fails, obs[|obs| - 1]);
      assert Run(peer, first, obs).probes == before.probes + [x];
      assert (before.probes + [x])[..n] == before.probes[..n];
    } else {
      assert obs[..n] == obs;
    }
  }

  /**
   * Iteration `i` declares the successor dead exactly when the timeouts up
   * to and including it number more than `MAX_FAILS`: first on the
   * `(MAX_FAILS + 1)`-th consecutive timeout, then on every further one.
   */
  lemma DeadExactlyPastThreshold(peer: int, first: bool, obs: seq<Observation>, i: nat)
    requires i < |obs|
    ensures Run(peer, first, obs).probes[i].declaresDead <==> Streak(obs[..i + 1]) > MAX_FAILS
  {
    RunPrefix(peer, first, obs, i + 1);
    var pre := obs[..i + 1];
    assert pre[..|pre| - 1] == obs[..i];
    CounterIsCappedStreak(peer, first, obs[..i]);
  }

  /**
   * Every probe goes to whatever successor the ring held at that iteration,
   * and every one carries the same ping: the sender's id and the slot flag.
   */
  lemma TargetsFollowRing(peer: int, first: bool, obs: seq<Observation>, i: nat)
    requires i < |obs|
    ensures Run(peer, first, obs).probes[i].port == GetPort(Target(obs[i].ring, first))
    ensures Tokens(Decode(Run(peer, first, obs).probes[i].data))
              == ["PG", IntToString(peer), IntToString(if first then 1 else 0)]
  {
    RunPrefix(peer, first, obs, i + 1);
    assert obs[..i + 1][i] == obs[i];
  }
}

=== FILE: ping_server.dfy ===
/**
 * The datagram listener (`PingServerUDP`): every datagram is received into
 * a fresh buffer of MSS + header-length bytes and dispatched on its first
 * two bytes. "FS" appends the segment's payload to the received file and
 * acknowledges the segment; "PG" reports the pinging peer and answers with
 * this peer's id; anything else is ignored.
 */
module PingServer {
  import opened JavaLang
  import opened Ring

  /** Where a datagram came from (`getAddress`, `getPort`), and so where its reply goes. */
  datatype Endpoint = Endpoint(host: nat, port: int)

  /** A datagram as the network delivers it: the bytes its sender wrote and its source. */
  datatype Packet = Packet(data: seq<byte>, source: Endpoint)

  datatype Reply = Reply(to: Endpoint, data: seq<byte>)

  /**
   * `fos`: whether the received file is open, and the bytes written to it
   * since it was last created (a closed sink keeps the finished file).
   */
  datatype Sink = Sink(open: bool, file: seq<byte>)

  /** No file open yet, nothing received. */
  const NO_FILE: Sink := Sink(false, [])

  /** A ping reported to the predecessor bookkeeping: the sender's id and its slot flag. */
  datatype Notice = NoNotice | PingFrom(id: int, flag: int)

  /** What handling one datagram did: the sink afterwards, the replies sent, the ping reported. */
  datatype Handled = Handled(sink: Sink, replies: seq<Reply>, notice: Notice)

  /** An uncaught exception, and the sink as it stands when the exception ends the thread. */
  datatype Fault = Fault(kind: JavaError, sink: Sink)

  /** The receive buffer's length, `getMSS() + TRANSFER_HEADER_LEN` in `int` arithmetic. */
  function Capacity(c: Config): int {
    Wrap32(c.mss + c.headerLen)
  }

  /** The datagram's first two bytes spell `tag`. */
  predicate Tagged(d: seq<byte>, tag: string) {
    |d| >= 2 && Decode(d[..2]) == tag
  }

  // ------------------------------------------------------------ replies

  /** `ackFilePacket`'s text: "ACK <seq_num> <num_bytes_sent>". */
  function AckText(seqNum: int, sent: int): (t: string)
    ensures Tokens(t) == ["ACK", IntToString(seqNum), IntToString(sent)]
    ensures Trim(t) == t
    ensures IsLatin1(t) && |t| > 0
  {
    var ts := ["ACK", IntToString(seqNum), IntToString(sent)];
    var t := "ACK" + " " + IntToString(seqNum) + " " + IntToString(sent);
    Join3(ts[0], ts[1], ts[2]);
    JoinWords(ts);
    TokensOfWords("", ts, "");
    TrimTrimmed(t);
    assert "" + t + "" == t;
    t
  }

  /** `sendPingResponse`: this peer's id in decimal, back to the ping's source. */
  /** The answer to a ping: this peer's id as decimal text, sent back to the pinger. */
  function Pong(c: Config, to: Endpoint): (r: Reply)
    ensures r.to == to && '\n' !in Decode(r.data) && '\r' !in Decode(r.data)
    ensures IsInt32(c.peer) ==> ParseInt(Decode(r.data)) == Some(c.peer)
  {
    var r := Reply(to, Encode(IntToString(c.peer)));
    assert IsInt32(c.peer) ==> ParseInt(Decode(r.data)) == Some(c.peer) by {
      if IsInt32(c.peer) { ParseIntToString(c.peer); }
    }
    r
  }

  // ------------------------------------------------------------ handlers

  /** The header fields as `handlePacket` reads them: the first `headerLen` bytes, trimmed and split, tokens 1 to 3. */
  function HeaderFields(buf: seq<byte>, headerLen: nat): (r: Result<seq<int>, JavaError>)
    requires headerLen <= |buf|
    ensures r.Ok? ==> |r.value| == 3
  {
    IntFields(Tokens(Decode(buf[..headerLen])), 1, 3)
  }

  /**
   * The FS branch on a buffer holding `len` received bytes: parse the
   * header, create the file when none is open (`new FileOutputStream`
   * truncates), write the bytes after the header, close on EOF = 1, and
   * acknowledge. A datagram shorter than the header makes the write's
   * length negative: the exception comes after the file was created.
   */
  function ReceiveSegment(c: Config, sink: Sink, buf: seq<byte>, len: nat, from: Endpoint): (r: Result<Handled, Fault>)
    requires len <= |buf|
    ensures r.Ok? ==> r.value.notice == NoNotice && |r.value.replies| == 1 && r.value.replies[0].to == from
    ensures r.Err? ==> r.error.sink == sink || (!sink.open && r.error.sink == Sink(true, []))
  {
    if |buf| < c.headerLen then Err(Fault(IndexOutOfBounds, sink))
    else match HeaderFields(buf, c.headerLen)
      case Err(e) => Err(Fault(e, sink))
      case Ok(f) =>
        var file := if sink.open then sink.file else [];
        if len < c.headerLen then Err(Fault(IndexOutOfBounds, Sink(true, file)))
        else Ok(Handled(Sink(f[2] != 1, file + buf[c.headerLen..len]),
                        [Reply(from, Encode(AckText(f[0], f[1])))], NoNotice))
  }

  /**
   * The PG branch: `readLine` on the whole buffer, tokens 1 and 2 parsed;
   * a `NumberFormatException` is caught (no report), a missing token is not;
   * the reply goes out either way.
   */
  function ReceivePing(c: Config, sink: Sink, buf: seq<byte>, from: Endpoint): (r: Result<Handled, Fault>)
    requires |buf| > 0
    ensures r.Ok? ==> r.value.sink == sink && r.value.replies == [Pong(c, from)]
    ensures r.Err? ==> r.error.sink == sink
  {
    var line := ReadLine(Decode(buf)).value;
    match IntFields(Tokens(line), 1, 2)
    case Ok(f) => Ok(Handled(sink, [Pong(c, from)], PingFrom(f[0], f[1])))
    case Err(e) =>
      if e == NumberFormat then Ok(Handled(sink, [Pong(c, from)], NoNotice)) else Err(Fault(e, sink))
  }

  /**
   * `handlePacket` on a datagram received into a fresh buffer: the buffer
   * holds the datagram's bytes, cut to its length, then zeros.
   */
  function HandlePacket(c: Config, sink: Sink, p: Packet): (r: Result<Handled, Fault>)
    ensures r.Ok? ==> |r.value.replies| <= 1
  {
    var cap := Capacity(c);
    if cap < 0 then Err(Fault(NegativeArraySize, sink))
    else if cap < 2 then Err(Fault(IndexOutOfBounds, sink))
    else
      var buf := Fit(p.data, cap);
      var len := Min(|p.data|, cap);
      var tag := Decode(buf[..2]);
      if tag == "FS" then ReceiveSegment(c, sink, buf, len, p.source)
      else if tag == "PG" then ReceivePing(c, sink, buf, p.source)
      else Ok(Handled(sink, [], NoNotice))
  }

  /** The two bytes the dispatch reads are the datagram's own exactly when it has two. */
  lemma TagOfBuffer(p: Packet, cap: nat, tag: string)
    requires cap >= 2 && |tag| == 2 && tag[0] != 0 as char && tag[1] != 0 as char
    ensures Decode(Fit(p.data, cap)[..2]) == tag <==> Tagged(p.data, tag)
  {
    var buf := Fit(p.data, cap);
    if |p.data| >= 2 {
      assert buf[..2] == p.data[..2];
    } else {
      assert buf[1] == 0;
      assert Decode(buf[..2])[1] == 0 as char;
    }
  }

  /** A datagram tagged "PG" goes to the ping handler. */
  lemma DispatchPing(c: Config, sink: Sink, p: Packet)
    requires Capacity(c) >= 2 && Tagged(p.data, "PG")
    ensures HandlePacket(c, sink, p) == ReceivePing(c, sink, Fit(p.data, Capacity(c)), p.source)
  {
    TagOfBuffer(p, Capacity(c), "PG");
  }

  /** Only file segments touch the file, and every ping is answered unless its parse fails. */
  lemma OnlySegmentsTouchTheFile(c: Config, sink: Sink, p: Packet)
    requires !Tagged(p.data, "FS")
    ensures HandlePacket(c, sink, p).Ok? ==> HandlePacket(c, sink, p).value.sink == sink
    ensures HandlePacket(c, sink, p).Err? ==> HandlePacket(c, sink, p).error.sink == sink
    ensures Tagged(p.data, "PG") && HandlePacket(c, sink, p).Ok? ==>
              HandlePacket(c, sink, p).value.replies == [Pong(c, p.source)]
    ensures !Tagged(p.data, "PG") && Capacity(c) >= 2 ==> HandlePacket(c, sink, p) == Ok(Handled(sink, [], NoNotice))
  {
    if Capacity(c) >= 2 {
      TagOfBuffer(p, Capacity(c), "FS");
      TagOfBuffer(p, Capacity(c), "PG");
    }
  }

  /**
   * A ping, by what the first line of its buffer tokenises to: it is always
   * answered with this peer's id and never touches the file; it is reported
   * as `PingFrom(id, flag)` exactly when tokens 1 and 2 are numerals; a
   * non-numeral is caught and nothing is reported; a missing token (before
   * any non-numeral) is an uncaught index error that ends the thread.
   */
  lemma PingOutcomes(c: Config, sink: Sink, p: Packet)
    requires Capacity(c) >= 2 && Tagged(p.data, "PG")
    ensures var ts := Tokens(ReadLine(Decode(Fit(p.data, Capacity(c)))).value);
            var r := HandlePacket(c, sink, p);
            && (r.Err? <==> |ts| < 2 || (|ts| == 2 && ParseInt(ts[1]).Some?))
            && (r.Err? ==> r.error == Fault(IndexOutOfBounds, sink))
            && (r.Ok? ==> r.value.sink == sink && r.value.replies == [Pong(c, p.source)])
            && (r.Ok? && r.value.notice != NoNotice
                <==> |ts| >= 3 && ParseInt(ts[1]).Some? && ParseInt(ts[2]).Some?)
            && (r.Ok? && r.value.notice != NoNotice
                ==> r.value.notice == PingFrom(ParseInt(ts[1]).value, ParseInt(ts[2]).value))
  {
    DispatchPing(c, sink, p);
    var ts := Tokens(ReadLine(Decode(Fit(p.data, Capacity(c)))).value);
    IntFieldsSpec(ts, 1, 2);
    if |ts| >= 2 && ParseInt(ts[1]).Some? {
      IntFieldsSpec(ts, 2, 1);
    }
  }

  /**
   * A file segment ends the thread, with nothing written or acknowledged,
   * exactly when its header does not parse (a field missing or not a
   * numeral) or the datagram is shorter than the header. A header that
   * does not parse leaves the file as it was; a header that parses in a
   * datagram shorter than the header has already created the file afresh
   * when none was open, so a finished file is left empty.
   */
  lemma SegmentFaults(c: Config, sink: Sink, p: Packet)
    requires Capacity(c) >= 2 && Tagged(p.data, "FS")
    ensures var r := HandlePacket(c, sink, p);
            && (r.Err? <==> (Capacity(c) < c.headerLen || |p.data| < c.headerLen
                             || HeaderFields(Fit(p.data, Capacity(c)), c.headerLen).Err?))
            && (c.headerLen <= Capacity(c) && c.headerLen <= |p.data|
                ==> (r.Err? <==> HeaderFields(p.data, c.headerLen).Err?))
            && (Capacity(c) < c.headerLen || HeaderFields(Fit(p.data, Capacity(c)), c.headerLen).Err?
                ==> r.Err? && r.error.sink == sink)
            && (c.headerLen <= Capacity(c) && HeaderFields(Fit(p.data, Capacity(c)), c.headerLen).Ok?
                && |p.data| < c.headerLen
                ==> r == Err(Fault(IndexOutOfBounds, Sink(true, if sink.open then sink.file else []))))
  {
    var cap := Capacity(c);
    var buf := Fit(p.data, cap);
    TagOfBuffer(p, cap, "FS");
    if c.headerLen <= cap && c.headerLen <= |p.data| {
      assert buf[..c.headerLen] == p.data[..c.headerLen] by {
        forall i | 0 <= i < c.headerLen ensures buf[i] == p.data[i] {
        }
      }
    }
  }

  /**
   * A file segment that fits the buffer and whose header parses extends the
   * file by exactly the bytes after the header (a fresh file when none was
   * open), leaves the file open unless EOF = 1, and is acknowledged with the
   * header's first two fields.
   */
  lemma SegmentAppends(c: Config, sink: Sink, p: Packet, f: seq<int>)
    requires Capacity(c) >= 2 && Tagged(p.data, "FS")
    requires c.headerLen <= |p.data| <= Capacity(c)
    requires HeaderFields(p.data, c.headerLen) == Ok(f)
    ensures |f| == 3
    ensures HandlePacket(c, sink, p)
            == Ok(Handled(Sink(f[2] != 1, (if sink.open then sink.file else []) + p.data[c.headerLen..]),
                          [Reply(p.source, Encode(AckText(f[0], f[1])))], NoNotice))
  {
    var cap := Capacity(c);
    var buf := Fit(p.data, cap);
    DispatchSegment(c, sink, p);
    FitPrefix(p.data, cap, c.headerLen);
    assert buf[..c.headerLen] == p.data[..c.headerLen];
    SegmentOfBuffer(c, sink, buf, |p.data|, p.source, f);
  }

  /** A datagram tagged "FS" goes to the segment handler, with its own length. */
  lemma DispatchSegment(c: Config, sink: Sink, p: Packet)
    requires Capacity(c) >= 2 && Tagged(p.data, "FS") && |p.data| <= Capacity(c)
    ensures HandlePacket(c, sink, p) == ReceiveSegment(c, sink, Fit(p.data, Capacity(c)), |p.data|, p.source)
  {
    TagOfBuffer(p, Capacity(c), "FS");
  }

  lemma SegmentOfBuffer(c: Config, sink: Sink, buf: seq<byte>, len: nat, from: Endpoint, f: seq<int>)
    requires c.headerLen <= len <= |buf|
    requires HeaderFields(buf, c.headerLen) == Ok(f)
    ensures |f| == 3
    ensures ReceiveSegment(c, sink, buf, len, from)
            == Ok(Handled(Sink(f[2] != 1, (if sink.open then sink.file else []) + buf[c.headerLen..len]),
                          [Reply(from, Encode(AckText(f[0], f[1])))], NoNotice))
  {
  }

  // ------------------------------------------------------------ the loop

  /** What the listener does with one datagram, given the sink as it stands. */
  type Handler = (Sink, Packet) -> Result<Handled, Fault>

  /** This peer's `handlePacket`. */
  function PeerHandler(c: Config): Handler {
    (sink, p) => HandlePacket(c, sink, p)
  }

  /**
   * The listener over a sequence of datagrams: the final sink, every reply,
   * every reported ping, and the exception that ended the thread, if any
   * (datagrams after it are never handled, and the sink is as the exception
   * left it).
   */
  datatype Served = Served(sink: Sink, replies: seq<Reply>, notices: seq<Notice>, fault: Option<JavaError>)

  function Serve(handle: Handler, sink: Sink, packets: seq<Packet>): (s: Served)
    // each datagram reports at most one ping
    ensures |s.notices| <= |packets|
    // an exception raised by the first datagram ends the listener
    ensures |packets| > 0 && handle(sink, packets[0]).Err? ==> s.fault.Some?
    decreases |packets|
  {
    if |packets| == 0 then Served(sink, [], [], None)
    else match handle(sink, packets[0])
      case Err(f) => Served(f.sink, [], [], Some(f.kind))
      case Ok(h) =>
        var rest := Serve(handle, h.sink, packets[1..]);
        var notices := if h.notice == NoNotice then [] else [h.notice];
        Served(rest.sink, h.replies + rest.replies, notices + rest.notices, rest.fault)
  }

  /** The first datagram handled, then the rest from the state it left. */
  lemma ServeStep(handle: Handler, sink: Sink, packets: seq<Packet>, h: Handled)
    requires |packets| > 0 && handle(sink, packets[0]) == Ok(h)
    ensures var rest := Serve(handle, h.sink, packets[1..]);
            Serve(handle, sink, packets)
              == Served(rest.sink, h.replies + rest.replies,
                        (if h.notice == NoNotice then [] else [h.notice]) + rest.notices, rest.fault)
  {
  }

  /** Handling continues from the state the earlier datagrams left. */
  lemma {:induction false} ServeConcat(handle: Handler, sink: Sink, ps: seq<Packet>, qs: seq<Packet>)
    requires Serve(handle, sink, ps).fault.None?
    ensures var first := Serve(handle, sink, ps);
            var second := Serve(handle, first.sink, qs);
            Serve(handle, sink, ps + qs)
              == Served(second.sink, first.replies + second.replies, first.notices + second.notices, second.fault)
    decreases |ps|
  {
    if |ps| == 0 {
      assert ps + qs == qs;
    } else {
      var h := handle(sink, ps[0]).value;
      var pq := ps + qs;
      assert pq[0] == ps[0];
      assert pq[1..] == ps[1..] + qs;
      ServeConcat(handle, h.sink, ps[1..], qs);
      var n := if h.notice == NoNotice then [] else [h.notice];
      var mid := Serve(handle, h.sink, ps[1..]);
      var second := Serve(handle, mid.sink, qs);
      Assoc(h.replies, mid.replies, second.replies);
      Assoc(n, mid.notices, second.notices);
    }
  }

  lemma Assoc<T>(a: seq<T>, b: seq<T>, c: seq<T>)
    ensures a + (b + c) == (a + b) + c
  {
  }

  /** A fault ends the listener: nothing after it is handled or answered. */
  lemma FaultStops(handle: Handler, sink: Sink, p: Packet, rest: seq<Packet>)
    requires handle(sink, p).Err?
    ensures Serve(handle, sink, [p] + rest)
            == Served(handle(sink, p).error.sink, [], [], Some(handle(sink, p).error.kind))
  {
    assert ([p] + rest)[0] == p;
  }

  /** Over the whole listener loop, this peer sends at most one reply per datagram received. */
  lemma {:induction false} ServeRepliesBound(c: Config, sink: Sink, packets: seq<Packet>)
    ensures |Serve(PeerHandler(c), sink, packets).replies| <= |packets|
    decreases |packets|
  {
    if |packets| > 0 {
      var r := HandlePacket(c, sink, packets[0]);
      if r.Ok? {
        ServeRepliesBound(c, r.value.sink, packets[1..]);
      }
    }
  }

  /**
   * A segment shorter than its header, whose header parses, arriving after
   * a finished file was closed: the file is created afresh before the
   * write's negative length raises, so the finished file is left empty, and
   * the listener ends without handling anything after it.
   */
  lemma ShortSegmentEmptiesFile(c: Config, file: seq<byte>, p: Packet, rest: seq<Packet>)
    requires Capacity(c) >= 2 && Tagged(p.data, "FS") && |p.data| < c.headerLen <= Capacity(c)
    requires HeaderFields(Fit(p.data, Capacity(c)), c.headerLen).Ok?
    ensures Serve(PeerHandler(c), Sink(false, file), [p] + rest)
            == Served(Sink(true, []), [], [], Some(IndexOutOfBounds))
  {
    SegmentFaults(c, Sink(false, file), p);
    FaultStops(PeerHandler(c), Sink(false, file), p, rest);
  }

  /**
   * No de-duplication: a segment delivered twice into an open file (EOF = 0)
   * is written twice, and acknowledged twice.
   */
  lemma DuplicateWrittenTwice(c: Config, file: seq<byte>, p: Packet, f: seq<int>)
    requires Capacity(c) >= 2 && Tagged(p.data, "FS")
    requires c.headerLen <= |p.data| <= Capacity(c)
    requires HeaderFields(p.data, c.headerLen) == Ok(f) && f[2] != 1
    ensures var payload := p.data[c.headerLen..];
            var s := Serve(PeerHandler(c), Sink(true, file), [p, p]);
            s.sink == Sink(true, file + payload + payload) && |s.replies| == 2 && s.fault.None?
  {
    var payload := p.data[c.headerLen..];
    SegmentAppends(c, Sink(true, file), p, f);
    var once := Sink(true, file + payload);
    SegmentAppends(c, once, p, f);
    Twice(PeerHandler(c), Sink(true, file), p, p);
  }

  /** Serving two datagrams is handling one, then the other from the state it left. */
  lemma Twice(handle: Handler, sink: Sink, p: Packet, q: Packet)
    requires handle(sink, p).Ok? && handle(handle(sink, p).value.sink, q).Ok?
    ensures var h1 := handle(sink, p).value;
            var h2 := handle(h1.sink, q).value;
            var s := Serve(handle, sink, [p, q]);
            s.sink == h2.sink && s.replies == h1.replies + h2.replies && s.fault.None?
  {
    var h1 := handle(sink, p).value;
    var h2 := handle(h1.sink, q).value;
    assert [p, q][1..] == [q];
    assert [q][1..] == [];
    var last := Serve(handle, h1.sink, [q]);
    assert Serve(handle, h2.sink, []) == Served(h2.sink, [], [], None);
    assert last.sink == h2.sink && last.replies == h2.replies + [] && last.fault.None?;
    assert h2.replies + [] == h2.replies;
  }

  /**
   * After a segment with EOF = 1 the file is closed, and the next segment
   * creates it afresh: a repeated final segment leaves a file holding only
   * that segment's bytes.
   */
  lemma EndOfFileStartsAfresh(c: Config, sink: Sink, p: Packet, f: seq<int>, q: Packet, g: seq<int>)
    requires Capacity(c) >= 2 && Tagged(p.data, "FS") && Tagged(q.data, "FS")
    requires c.headerLen <= |p.data| <= Capacity(c) && c.headerLen <= |q.data| <= Capacity(c)
    requires HeaderFields(p.data, c.headerLen) == Ok(f) && f[2] == 1
    requires HeaderFields(q.data, c.headerLen) == Ok(g)
    ensures HandlePacket(c, sink, p).Ok? && !HandlePacket(c, sink, p).value.sink.open
    ensures Serve(PeerHandler(c), sink, [p, q]).sink == Sink(g[2] != 1, q.data[c.headerLen..])
  {
    SegmentAppends(c, sink, p, f);
    var closed := HandlePacket(c, sink, p).value.sink;
    SegmentAppends(c, closed, q, g);
    Twice(PeerHandler(c), sink, p, q);
    assert [] + q.data[c.headerLen..] == q.data[c.headerLen..];
  }
}

=== FILE: ring.dfy ===
/**
 * The ring state one peer keeps (`cdht`): its own id, two successors and two
 * predecessors, the predecessor bookkeeping driven by incoming pings, the
 * port scheme, and the graceful-quit message a departing peer sends to each
 * predecessor.
 */
module Ring {
  import opened JavaLang

  const DEFAULT_PORT: int := 50000

  /** Sentinel for a predecessor slot not learnt yet. */
  const UNKNOWN: int := -1

  datatype RingState = RingState(
    peer: int,
    firstSucc: int,
    secondSucc: int,
    firstPred: int,
    secondPred: int)

  /**
   * The peer's transfer settings: its id, its MSS, and the fixed length of a
   * file segment's header (`cdht.TRANSFER_HEADER_LEN`, whose value is not
   * part of this model, so it is a parameter).
   *
   * `peer` is the same id as the `RingState`'s `peer`: the datagram
   * listener reads it through `getPeer()` and the file sender is handed it
   * as `peer_id`, and neither ever changes it. It is kept here, apart from
   * the ring state, because the ring state changes as peers join and quit,
   * while the settings do not. No member in this model takes both, so the
   * two never need to be reconciled.
   */
  datatype Config = Config(peer: int, mss: int, headerLen: nat)

  /** Every id is a Java `int`, as `Integer.parseInt` produced it. */
  predicate Valid(r: RingState) {
    IsInt32(r.peer) && IsInt32(r.firstSucc) && IsInt32(r.secondSucc)
    && IsInt32(r.firstPred) && IsInt32(r.secondPred)
  }

  /** A peer as the constructor creates it: both predecessors unknown. */
  function Create(peer: int, firstSucc: int, secondSucc: int): (r: RingState)
    requires IsInt32(peer) && IsInt32(firstSucc) && IsInt32(secondSucc)
    ensures Valid(r) && PredOrdered(r)
    ensures !IsPredecessor(r, peer) || peer == UNKNOWN
  {
    RingState(peer, firstSucc, secondSucc, UNKNOWN, UNKNOWN)
  }

  /** `getPort`: the per-peer offset from the base port, in Java `int` arithmetic. */
  function GetPort(id: int): (port: int)
    ensures IsInt32(port)
    ensures IsInt32(id) && id <= INT_MAX - DEFAULT_PORT ==> port - DEFAULT_PORT == id
  {
    Wrap32(DEFAULT_PORT + id)
  }

  /** Distinct ids that do not overflow get distinct ports. */
  lemma GetPortInjective(a: int, b: int)
    requires INT_MIN <= a <= INT_MAX - DEFAULT_PORT
    requires INT_MIN <= b <= INT_MAX - DEFAULT_PORT
    ensures GetPort(a) == GetPort(b) <==> a == b
  {
  }

  predicate IsFirstPredecessor(r: RingState, id: int) {
    r.firstPred == id
  }

  predicate IsSecondPredecessor(r: RingState, id: int) {
    r.secondPred == id
  }

  predicate IsPredecessor(r: RingState, id: int) {
    IsFirstPredecessor(r, id) || IsSecondPredecessor(r, id)
  }

  // ------------------------------------------------ predecessor bookkeeping

  /** The new id goes into the first unknown slot, if there is one. */
  function FillSlot(r: RingState, id: int): RingState {
    if r.firstPred == UNKNOWN then r.(firstPred := id)
    else if r.secondPred == UNKNOWN then r.(secondPred := id)
    else r
  }

  function SwapPreds(r: RingState): RingState {
    r.(firstPred := r.secondPred, secondPred := r.firstPred)
  }

  /** The swap-based reorder that follows the fill. */
  function Reorder(r: RingState): RingState {
    if r.firstPred > r.peer && r.secondPred < r.peer then SwapPreds(r)
    else if r.firstPred > r.peer && r.secondPred > r.peer then
      (if r.firstPred < r.secondPred then SwapPreds(r) else r)
    else if r.firstPred < r.peer && r.secondPred < r.peer then
      (if r.firstPred < r.secondPred then SwapPreds(r) else r)
    else r
  }

  /**
   * The ordering pattern the reorder establishes: never a first predecessor
   * above the peer with a second one below it, and the larger id first when
   * both lie on the same side of the peer (the -1 sentinel lies below).
   */
  predicate PredOrdered(r: RingState) {
    && !(r.firstPred > r.peer && r.secondPred < r.peer)
    && (r.firstPred > r.peer && r.secondPred > r.peer ==> r.firstPred >= r.secondPred)
    && (r.firstPred < r.peer && r.secondPred < r.peer ==> r.firstPred >= r.secondPred)
  }

  predicate SameButPreds(r: RingState, r': RingState) {
    r'.peer == r.peer && r'.firstSucc == r.firstSucc && r'.secondSucc == r.secondSucc
  }

  /** `updatePredecessors(id)`, called when a ping from `id` arrives. */
  function UpdatePredecessors(r: RingState, id: int): (r': RingState)
    ensures SameButPreds(r, r')
    // a ping from a known predecessor is disregarded
    ensures IsPredecessor(r, id) ==> r' == r
    // a new id fills the first unknown slot; the reorder only permutes the pair
    ensures !IsPredecessor(r, id) && r.firstPred == UNKNOWN ==>
              multiset{r'.firstPred, r'.secondPred} == multiset{id, r.secondPred}
    ensures !IsPredecessor(r, id) && r.firstPred != UNKNOWN && r.secondPred == UNKNOWN ==>
              multiset{r'.firstPred, r'.secondPred} == multiset{r.firstPred, id}
    ensures !IsPredecessor(r, id) && r.firstPred != UNKNOWN && r.secondPred != UNKNOWN ==>
              multiset{r'.firstPred, r'.secondPred} == multiset{r.firstPred, r.secondPred}
    ensures !IsPredecessor(r, id) || PredOrdered(r) ==> PredOrdered(r')
    ensures Valid(r) && IsInt32(id) ==> Valid(r')
  {
    if IsPredecessor(r, id) then r else Reorder(FillSlot(r, id))
  }

  /** The reorder leaves an ordered pair alone. */
  lemma ReorderOrdered(r: RingState)
    requires PredOrdered(r)
    ensures Reorder(r) == r
  {
  }

  /** A second identical update is a no-op. */
  lemma UpdateIdempotent(r: RingState, id: int)
    ensures UpdatePredecessors(UpdatePredecessors(r, id), id) == UpdatePredecessors(r, id)
  {
    var r1 := UpdatePredecessors(r, id);
    if !IsPredecessor(r1, id) {
      assert !IsPredecessor(r, id);
      assert r.firstPred != UNKNOWN && r.secondPred != UNKNOWN;
      assert r1.firstPred != UNKNOWN && r1.secondPred != UNKNOWN;
      assert FillSlot(r1, id) == r1;
      ReorderOrdered(r1);
    }
  }

  /** A lone predecessor above the peer ends up in the second slot. */
  lemma LoneHighPredecessorIsSecond(r: RingState, id: int)
    requires r.firstPred == UNKNOWN && r.secondPred == UNKNOWN
    requires id > r.peer && r.peer > UNKNOWN
    ensures UpdatePredecessors(r, id).firstPred == UNKNOWN
    ensures UpdatePredecessors(r, id).secondPred == id
  {
  }

  /** Ordering holds in every state reached from `Create` by updates. */
  lemma {:induction false} UpdatesKeepOrder(r: RingState, ids: seq<int>)
    requires PredOrdered(r)
    ensures PredOrdered(UpdateAll(r, ids))
    decreases |ids|
  {
    if |ids| > 0 {
      UpdatesKeepOrder(UpdatePredecessors(r, ids[0]), ids[1..]);
    }
  }

  function UpdateAll(r: RingState, ids: seq<int>): RingState
    decreases |ids|
  {
    if |ids| == 0 then r else UpdateAll(UpdatePredecessors(r, ids[0]), ids[1..])
  }

  // ------------------------------------------------------------ graceful quit

  /** `createQuitMessage(first, second)`: "GQ <peer> <first> <second>". */
  function CreateQuitMessage(r: RingState, first: int, second: int): (m: string)
    ensures Tokens(m) == ["GQ", IntToString(r.peer), IntToString(first), IntToString(second)]
    ensures Trim(m) == m
    ensures IsLatin1(m) && '\n' !in m && '\r' !in m
  {
    var ts := ["GQ", IntToString(r.peer), IntToString(first), IntToString(second)];
    var m := "GQ" + " " + IntToString(r.peer) + " " + IntToString(first) + " " + IntToString(second);
    Join4(ts[0], ts[1], ts[2], ts[3]);
    JoinWords(ts);
    TokensOfWords("", ts, "");
    TrimTrimmed(m);
    assert "" + m + "" == m;
    m
  }

  /** What `gracefulQuit(receiver)` does once its connection is open. */
  datatype QuitAction =
    | Notify(port: int, wire: string)  // write the quit message and a newline
    | FatalExit                        // "Impossible Error": System.exit(1)

  function GracefulQuit(r: RingState, receiver: int): (a: QuitAction)
    // the first predecessor takes over the quitting peer's two successors
    ensures receiver == r.firstPred ==>
              a == Notify(GetPort(receiver), CreateQuitMessage(r, r.firstSucc, r.secondSucc) + "\n")
    // the second predecessor gets the first predecessor and the first successor
    ensures receiver != r.firstPred && receiver == r.secondPred ==>
              a == Notify(GetPort(receiver), CreateQuitMessage(r, r.firstPred, r.firstSucc) + "\n")
    ensures a == FatalExit <==> !IsPredecessor(r, receiver)
  {
    if receiver == r.firstPred then
      Notify(GetPort(receiver), CreateQuitMessage(r, r.firstSucc, r.secondSucc) + "\n")
    else if receiver == r.secondPred then
      Notify(GetPort(receiver), CreateQuitMessage(r, r.firstPred, r.firstSucc) + "\n")
    else FatalExit
  }

  /** The "quit" command: one notice to each predecessor, first one first. */
  function Quit(r: RingState): (actions: seq<QuitAction>)
    ensures |actions| == 2
    ensures forall i :: 0 <= i < 2 ==> actions[i].Notify?
    ensures actions[0].port == GetPort(r.firstPred) && actions[1].port == GetPort(r.secondPred)
  {
    [GracefulQuit(r, r.firstPred), GracefulQuit(r, r.secondPred)]
  }
}

=== FILE: tcp_server.dfy ===
/**
 * The control-message listener (`TCPServer`): one line per connection,
 * split into a type tag and up to three integer fields, dispatched to the
 * file-request (FR), graceful-quit (GQ) and dead-peer (DP) handlers, which
 * update the successor fields of the ring state or answer a DP query.
 */
module TcpServer {
  import opened JavaLang
  import opened Ring

  /**
   * Why handling a connection stopped the listener: `readLine` gave null, or
   * the field parse raised an unchecked exception that nothing catches.
   */
  datatype Fault = NoLine | Raised(error: JavaError)

  /** A message written to a fresh connection to `port`. */
  datatype Send = Send(port: int, wire: string)

  /** The ring state after one message, and what the handler sent. */
  datatype Effect = Effect(ring: RingState, sends: seq<Send>)

  /** `extractType`: the first piece of the split message, i.e. the text before its first space. */
  function ExtractType(message: string): (tag: string)
    ensures ' ' !in tag
    ensures tag <= Trim(message)
    ensures |tag| == |Trim(message)| || Trim(message)[|tag|] == ' '
  {
    Split(Trim(message))[0]
  }

  /**
   * The loop of `getMessageFields` from position `i` on: parse token `i`,
   * then store it in slot `i - 1` of the three-slot array.
   */
  function StoreFields(tokens: seq<string>, i: nat, slots: seq<int>): (r: Result<seq<int>, JavaError>)
    requires 1 <= i <= |tokens| && i <= 4 && |slots| == 3
    ensures r.Ok? ==> |r.value| == 3
    ensures r.Ok? <==> (|tokens| <= 4 && forall k :: i <= k < |tokens| ==> ParseInt(tokens[k]).Some?)
    ensures r.Ok? ==> forall k :: i <= k < |tokens| ==> ParseInt(tokens[k]) == Some(r.value[k - 1])
    ensures r.Ok? ==> forall k :: 0 <= k < 3 && !(i <= k + 1 < |tokens|) ==> r.value[k] == slots[k]
    ensures r == Err(IndexOutOfBounds) ==>
              |tokens| > 4 && forall k :: i <= k <= 4 ==> ParseInt(tokens[k]).Some?
    ensures r == Err(NumberFormat) ==>
              exists k :: i <= k < |tokens| && k <= 4 && ParseInt(tokens[k]).None?
    decreases |tokens| - i
  {
    if i == |tokens| then Ok(slots)
    else match ParseInt(tokens[i])
      case None => Err(NumberFormat)
      case Some(v) =>
        if i - 1 >= 3 then Err(IndexOutOfBounds)
        else StoreFields(tokens, i + 1, slots[i - 1 := v])
  }

  /**
   * `getMessageFields` on the split message: tokens 1.. parsed into a
   * three-slot array; missing trailing fields stay 0, a fifth token overruns
   * the array, a non-numeral raises `NumberFormatException`.
   */
  function Fields(tokens: seq<string>): (r: Result<seq<int>, JavaError>)
    requires |tokens| > 0
    ensures r.Ok? <==> (|tokens| <= 4 && forall k :: 1 <= k < |tokens| ==> ParseInt(tokens[k]).Some?)
    ensures r.Ok? ==> |r.value| == 3 && forall k :: 0 <= k < 3 ==> IsInt32(r.value[k])
    ensures r.Ok? ==> forall k :: 1 <= k < |tokens| ==> ParseInt(tokens[k]) == Some(r.value[k - 1])
    ensures r.Ok? ==> forall k :: |tokens| - 1 <= k < 3 ==> r.value[k] == 0
    ensures r == Err(IndexOutOfBounds) ==> |tokens| > 4
    ensures r == Err(NumberFormat) ==> exists k :: 1 <= k < |tokens| && ParseInt(tokens[k]).None?
  {
    var r := StoreFields(tokens, 1, [0, 0, 0]);
    assert r.Ok? ==> forall k :: 0 <= k < 3 ==> IsInt32(r.value[k]) by {
      if r.Ok? {
        forall k | 0 <= k < 3 ensures IsInt32(r.value[k]) {
          if k + 1 < |tokens| {
            assert ParseInt(tokens[k + 1]) == Some(r.value[k]);
          }
        }
      }
    }
    r
  }

  function MessageFields(message: string): Result<seq<int>, JavaError> {
    Fields(Tokens(message))
  }

  /** `processGracefulQuit`: the two payload ids become the successors. */
  function ProcessGracefulQuit(r: RingState, fields: seq<int>): (e: Effect)
    requires |fields| == 3
    ensures e.ring == r.(firstSucc := fields[1], secondSucc := fields[2])
    ensures e.sends == []
  {
    Effect(r.(firstSucc := fields[1], secondSucc := fields[2]), [])
  }

  /** `createKillResponse`: "DP <peer> 0 <first successor>", no line terminator. */
  function CreateKillResponse(r: RingState): (m: string)
    ensures Tokens(m) == ["DP", IntToString(r.peer), "0", IntToString(r.firstSucc)]
    ensures Trim(m) == m
    ensures |m| > 0 && '\n' !in m && '\r' !in m
  {
    var ts := ["DP", IntToString(r.peer), "0", IntToString(r.firstSucc)];
    var m := "DP" + " " + IntToString(r.peer) + " " + "0" + " " + IntToString(r.firstSucc);
    Join4(ts[0], ts[1], ts[2], ts[3]);
    JoinWords(ts);
    TokensOfWords("", ts, "");
    TrimTrimmed(m);
    assert "" + m + "" == m;
    m
  }

  /**
   * `processDeadPeer`: a query (flag 1) is answered at the sender's port
   * with this peer's first successor; anything else is a response whose
   * third field becomes the second successor.
   */
  function ProcessDeadPeer(r: RingState, fields: seq<int>): (e: Effect)
    requires |fields| == 3
    ensures fields[1] == 1 ==> e.ring == r && e.sends == [Send(GetPort(fields[0]), CreateKillResponse(r))]
    ensures fields[1] != 1 ==> e.ring == r.(secondSucc := fields[2]) && e.sends == []
  {
    if fields[1] == 1 then Effect(r, [Send(GetPort(fields[0]), CreateKillResponse(r))])
    else Effect(r.(secondSucc := fields[2]), [])
  }

  /**
   * `parseTCPRequest` on a trimmed line: the fields are parsed before the
   * dispatch, whatever the tag; FR only prints and unknown tags are ignored.
   */
  function ParseRequest(r: RingState, message: string): (res: Result<Effect, Fault>)
    ensures res.Err? <==> MessageFields(message).Err?
    ensures res.Err? ==> res.error == Raised(MessageFields(message).error)
    ensures res.Ok? && ExtractType(message) != "GQ" && ExtractType(message) != "DP" ==>
              res.value == Effect(r, [])
    ensures res.Ok? && ExtractType(message) == "GQ" ==>
              res.value == ProcessGracefulQuit(r, MessageFields(message).value)
    ensures res.Ok? && ExtractType(message) == "DP" ==>
              res.value == ProcessDeadPeer(r, MessageFields(message).value)
    // only successor fields ever change
    ensures res.Ok? ==> SameButSuccs(r, res.value.ring)
    ensures res.Ok? && Valid(r) ==> Valid(res.value.ring)
  {
    Dispatch(r, ExtractType(message), MessageFields(message))
  }

  /** The dispatch on the message type, once the fields are parsed (or failed to parse). */
  function Dispatch(r: RingState, tag: string, parsed: Result<seq<int>, JavaError>): (res: Result<Effect, Fault>)
    requires parsed.Ok? ==> |parsed.value| == 3 && forall k :: 0 <= k < 3 ==> IsInt32(parsed.value[k])
    ensures res.Err? <==> parsed.Err?
    ensures res.Err? ==> res.error == Raised(parsed.error)
    ensures res.Ok? && tag != "GQ" && tag != "DP" ==> res.value == Effect(r, [])
    ensures res.Ok? && tag == "GQ" ==> res.value == ProcessGracefulQuit(r, parsed.value)
    ensures res.Ok? && tag == "DP" ==> res.value == ProcessDeadPeer(r, parsed.value)
    ensures res.Ok? ==> SameButSuccs(r, res.value.ring)
    ensures res.Ok? && Valid(r) ==> Valid(res.value.ring)
  {
    match parsed
    case Err(e) => Err(Raised(e))
    case Ok(fields) =>
      if tag == "FR" then Ok(Effect(r, []))
      else if tag == "GQ" then Ok(ProcessGracefulQuit(r, fields))
      else if tag == "DP" then Ok(ProcessDeadPeer(r, fields))
      else Ok(Effect(r, []))
  }

  predicate SameButSuccs(r: RingState, r': RingState) {
    r'.peer == r.peer && r'.firstPred == r.firstPred && r'.secondPred == r.secondPred
  }

  /** One accepted connection: `readLine().trim()`, then `parseTCPRequest`. */
  function HandleConnection(r: RingState, wire: string): (res: Result<Effect, Fault>)
    ensures wire == "" ==> res == Err(NoLine)
    ensures wire != "" ==> res == ParseRequest(r, Trim(ReadLine(wire).value))
  {
    match ReadLine(wire)
    case None => Err(NoLine)
    case Some(line) => ParseRequest(r, Trim(line))
  }

  // ------------------------------------------------------------ round trips

  /** Parsing the fields of a tag and three written integers gives the integers back. */
  lemma FieldsOfTokens(tag: string, a: int, b: int, c: int)
    requires IsInt32(a) && IsInt32(b) && IsInt32(c)
    ensures Fields([tag, IntToString(a), IntToString(b), IntToString(c)]) == Ok([a, b, c])
  {
    ParseIntToString(a);
    ParseIntToString(b);
    ParseIntToString(c);
    FieldsOfParsed([tag, IntToString(a), IntToString(b), IntToString(c)], a, b, c);
  }

  lemma FieldsOfParsed(ts: seq<string>, a: int, b: int, c: int)
    requires |ts| == 4 && ParseInt(ts[1]) == Some(a) && ParseInt(ts[2]) == Some(b) && ParseInt(ts[3]) == Some(c)
    ensures Fields(ts) == Ok([a, b, c])
  {
    var f := Fields(ts);
    assert f.Ok?;
    assert ParseInt(ts[1]) == Some(f.value[0]);
    assert ParseInt(ts[2]) == Some(f.value[1]);
    assert ParseInt(ts[3]) == Some(f.value[2]);
    assert f.value == [a, b, c];
  }

  /** The fields of a tagged message of three integers come back as written. */
  lemma FieldsOfMessage(tag: string, a: int, b: int, c: int, pre: string, post: string)
    requires IsWord(tag) && IsInt32(a) && IsInt32(b) && IsInt32(c)
    requires AllWhite(pre) && AllWhite(post)
    ensures Tokens(pre + Join([tag, IntToString(a), IntToString(b), IntToString(c)]) + post)[0] == tag
    ensures MessageFields(pre + Join([tag, IntToString(a), IntToString(b), IntToString(c)]) + post)
            == Ok([a, b, c])
  {
    var ts := [tag, IntToString(a), IntToString(b), IntToString(c)];
    TokensOfWords(pre, ts, post);
    FieldsOfTokens(tag, a, b, c);
  }

  /** A one-line message, delivered with or without a line terminator, is handled as its tokens say. */
  lemma HandleLine(r: RingState, m: string, tail: string)
    requires |m| > 0 && '\n' !in m && '\r' !in m
    requires tail == "" || tail[0] == '\n'
    ensures HandleConnection(r, m + tail) == ParseRequest(r, Trim(m))
    ensures ExtractType(Trim(m)) == Tokens(m)[0]
    ensures MessageFields(Trim(m)) == Fields(Tokens(m))
  {
    ReadLineUnterminated(m, tail);
    TrimTrimmed(Trim(m));
  }

  /**
   * A graceful-quit notice, delivered over a connection, leaves the receiver
   * with the two successors it carries and changes nothing else.
   */
  lemma QuitRoundTrip(departing: RingState, first: int, second: int, receiver: RingState)
    requires IsInt32(departing.peer) && IsInt32(first) && IsInt32(second)
    ensures HandleConnection(receiver, CreateQuitMessage(departing, first, second) + "\n")
            == Ok(Effect(receiver.(firstSucc := first, secondSucc := second), []))
  {
    QuitLine(receiver, CreateQuitMessage(departing, first, second), departing.peer, first, second);
  }

  /** Any line whose tokens are "GQ" and three integers is a graceful-quit notice. */
  lemma QuitLine(receiver: RingState, m: string, a: int, b: int, c: int)
    requires IsInt32(a) && IsInt32(b) && IsInt32(c)
    requires |m| > 0 && '\n' !in m && '\r' !in m
    requires Tokens(m) == ["GQ", IntToString(a), IntToString(b), IntToString(c)]
    ensures HandleConnection(receiver, m + "\n") == Ok(Effect(receiver.(firstSucc := b, secondSucc := c), []))
  {
    HandleLine(receiver, m, "\n");
    FieldsOfTokens("GQ", a, b, c);
  }

  /**
   * The dead-peer reply round trip: the querier's second successor becomes
   * the responder's first successor, nothing else changes.
   */
  lemma KillResponseRoundTrip(responder: RingState, querier: RingState)
    requires IsInt32(responder.peer) && IsInt32(responder.firstSucc)
    ensures MessageFields(CreateKillResponse(responder)) == Ok([responder.peer, 0, responder.firstSucc])
    ensures HandleConnection(querier, CreateKillResponse(responder))
            == Ok(Effect(querier.(secondSucc := responder.firstSucc), []))
  {
    var m := CreateKillResponse(responder);
    assert IntToString(0) == "0";
    DeadPeerLine(querier, m, responder.peer, 0, responder.firstSucc);
  }

  /** Any line whose tokens are "DP" and three integers is handled as a dead-peer message with those fields. */
  lemma DeadPeerLine(r: RingState, m: string, a: int, flag: int, c: int)
    requires IsInt32(a) && IsInt32(flag) && IsInt32(c)
    requires |m| > 0 && '\n' !in m && '\r' !in m
    requires Tokens(m) == ["DP", IntToString(a), IntToString(flag), IntToString(c)]
    ensures MessageFields(m) == Ok([a, flag, c])
    ensures HandleConnection(r, m) == Ok(ProcessDeadPeer(r, [a, flag, c]))
  {
    HandleLine(r, m, "");
    assert m + "" == m;
    FieldsOfTokens("DP", a, flag, c);
  }

  /**
   * A dead-peer query "DP <querier> 1 <x>" is answered at the querier's port,
   * and the answer, handled there, installs the responder's first successor
   * as the querier's second successor.
   */
  lemma DeadPeerRepairExchange(responder: RingState, querier: RingState, x: int)
    requires Valid(responder) && IsInt32(querier.peer) && IsInt32(x)
    ensures HandleConnection(responder, Join(["DP", IntToString(querier.peer), IntToString(1), IntToString(x)]))
            == Ok(Effect(responder, [Send(GetPort(querier.peer), CreateKillResponse(responder))]))
    ensures HandleConnection(querier, CreateKillResponse(responder))
            == Ok(Effect(querier.(secondSucc := responder.firstSucc), []))
  {
    var ts := ["DP", IntToString(querier.peer), IntToString(1), IntToString(x)];
    var m := Join(ts);
    JoinWords(ts);
    TokensOfWords("", ts, "");
    assert "" + m + "" == m;
    DeadPeerLine(responder, m, querier.peer, 1, x);
    KillResponseRoundTrip(responder, querier);
  }

  /**
   * The graceful-quit handshake: when peer P with predecessors (Q, R) and
   * successors (S, T) quits, Q ends with successors (S, T) and R with (Q, S).
   */
  lemma GracefulQuitHandshake(p: RingState, q: RingState, r: RingState)
    requires Valid(p)
    requires p.firstPred == q.peer && p.secondPred == r.peer && q.peer != r.peer
    ensures Quit(p)[0].port == GetPort(q.peer) && Quit(p)[1].port == GetPort(r.peer)
    ensures HandleConnection(q, Quit(p)[0].wire)
            == Ok(Effect(q.(firstSucc := p.firstSucc, secondSucc := p.secondSucc), []))
    ensures HandleConnection(r, Quit(p)[1].wire)
            == Ok(Effect(r.(firstSucc := p.firstPred, secondSucc := p.firstSucc), []))
  {
    QuitRoundTrip(p, p.firstSucc, p.secondSucc, q);
    QuitRoundTrip(p, p.firstPred, p.firstSucc, r);
  }
}
